=== FILE: README.md ===
# video-transcribe-mcp in Dafny

A model of the deterministic core of the video-transcription tool server
(`src/server.py`). The server takes a video URL or a local audio file, has an
external downloader and a speech engine turn it into timed segments, and writes
a plain-text transcript into a transcript directory. It can also list the
transcripts it has written. The model covers:

- the naming helpers `sanitize_filename` and `detect_platform` (module `Naming`);
- the clock renderings `format_timestamp` and `format_duration`, together with
  a parser that reads them back (module `Formatting`);
- the segment loop of `transcribe_audio`, and the file name and content that
  `save_transcript` builds (module `Transcript`);
- the two directories the server touches (module `Directories`):
  - the temp directory, as a class over the set of its file names, with the
    artifact search and the `finally` cleanup;
  - the transcript directory, as a class over a map from file name to text,
    with the save and the listing;
- the pathlib steps of the file flow (module `Paths`);
- the handlers `handle_transcribe_url`, `handle_transcribe_file` and the
  router `handle_tool_call` (module `Pipeline`).

`Strings` supplies the Python `str` operations the server uses: `join`,
`strip` with Python's exact whitespace set, `lower`, the `in` substring test
and the string order `sorted` uses. It adds `split`, the inverse of `join`
that reads a written transcript back. `Wrappers` supplies `Option`.

The collaborators are inputs, gathered in a `Pipeline.Environment` value:

- the downloader's metadata record and whether its download succeeded, plus the
  files the download leaves in the temp directory;
- the speech engine, as a function from audio file and language to segments or
  an exception message;
- `Path.exists`, and the home directory that `expanduser` uses;
- the two clock readings `save_transcript` formats;
- the temp files whose `unlink` fails.

The model is stated in the following terms:

- **Times.** Segment times are whole seconds (`nat`). `format_timestamp` and
  the `int(...)` of the file flow look only at the floor of a non-negative
  time, so this loses nothing. The downloader's duration is treated apart
  (below).
- **Lower-casing.** `lower()` is modelled on ASCII letters.
- **Artifact choice.** The glob loop picks any `audio_*.mp3` file, because the
  directory's iteration order is unspecified. `TranscribeUrl` promises the
  outcome for *some* admissible pick (`Chosen`).
- **Clock.** `save_transcript` reads the clock twice: once for the file name
  and once for the date line. The model takes two readings (`Clock.stamp`,
  `Clock.date`).
- **Limit.** `list_transcripts` uses Python's slice `[:limit]`, so a negative
  limit drops that many names from the end (`SliceLength`). The tool schema
  (src/server.py:260-263) describes `limit` only as a maximum; the model
  follows the slice.
- **Duration.** The downloader's `duration` is whole seconds, a float or
  `null` (`Pipeline.Duration`). `format_duration` formats its minutes or
  seconds with `02d`, which a float rejects even when it is whole, such as
  `30.0`, and it floor-divides first, which `None` rejects. So a duration that
  is not an `int` makes `save_transcript` raise at src/server.py:186, after the
  engine has heard speech and before anything is written. The URL flow then
  raises with that message, saves nothing and still cleans up
  (`UrlDurationNotInt`).
- **Cleanup.** The cleanup swallows unlink failures, so afterwards the temp
  directory is left with no `audio_*` file except those whose removal failed.
  With no failures it is left with none (`CleanupEmptiesAudio`).
- **No-speech messages.** The URL flow reports "No speech detected in the
  video". The file flow reports "No speech detected in the file", as the code
  writes it.
- **Missing arguments.** A missing `url` or `file_path` raises `KeyError`. The
  router turns it into the error text `'url'` or `'file_path'`, the quoted key
  as `str(KeyError)` gives it.

## Model

| member | source | states |
|---|---|---|
| Strings.Join | src/server.py:205 | `sep.join(parts)`; `SplitJoin` and `JoinSplit` state its round trip with `split` |
| Strings.IsSpace | src/server.py:160 | the code points `str.isspace()` accepts, which `strip()` removes |
| Strings.Strip | src/server.py:56 | `strip()`: the result is a trimmed piece of the input with only whitespace before and after it (`StrippedFrom`) |
| Strings.StrippedFromUnique | src/server.py:56 | only one string meets that description, so it fixes the result of `strip()` |
| Strings.Lower | src/server.py:61 | `lower()`: same length, each ASCII capital lower-cased and every other code point kept |
| Strings.Contains | src/server.py:62-70 | `sub in s`; `ContainsIffOccurs` states it is an occurrence at some index |
| Strings.Below | src/server.py:372 | Python's string order; `BelowIrreflexive`, `BelowTransitive` and `BelowTotal` make it a strict total order |
| Strings.SplitJoin | src/server.py:209 | splitting a join of separator-free pieces at the separator gives the pieces back |
| Strings.JoinSplit | src/server.py:209 | joining the pieces of a split with the separator gives the text back |
| Strings.StripTrimmed | src/server.py:56 | `strip()` keeps a string that has no surrounding whitespace |
| Strings.StripIdempotent | src/server.py:160 | stripping twice gives the same as stripping once |
| Strings.LowerIdempotent | src/server.py:61 | lower-casing twice gives the same as lower-casing once |
| Strings.LowerUpper | src/server.py:61 | lower-casing an upper-cased string gives the lower-cased original |
| Strings.ContainsIffOccurs | src/server.py:62-70 | `sub in s` holds exactly when `sub` occurs at some index of `s` |
| Strings.BelowIrreflexive | src/server.py:372 | no string is below itself |
| Strings.BelowTransitive | src/server.py:372 | the string order is transitive |
| Strings.BelowTotal | src/server.py:372 | of two different strings exactly one is below the other |
| Naming.RemoveForbidden | src/server.py:54 | the result holds none of `<>:"/\|?*` and is no longer than the input |
| Naming.RemoveForbiddenAppend | src/server.py:54 | deleting the forbidden characters distributes over concatenation |
| Naming.RemoveForbiddenClean | src/server.py:54 | a string without forbidden characters is left unchanged |
| Naming.TakeAtMost | src/server.py:56 | `s[:100]`: the first 100 characters, or all of them when there are fewer |
| Naming.SanitizeFilename | src/server.py:51-56 | the sanitised title is the first 100 characters of the purged title (all of it if shorter) with the surrounding whitespace removed, so it holds no forbidden character, has at most 100 characters and no surrounding whitespace |
| Naming.SanitizeClean | src/server.py:51-56 | a title that is already clean, at most 100 long and trimmed is kept verbatim |
| Naming.SanitizeIdempotent | src/server.py:51-56 | sanitising twice gives the same as sanitising once |
| Naming.SanitizeNoSlash | src/server.py:51-56 | the sanitised title never holds a `/` |
| Naming.SanitizeIgnoresForbidden | src/server.py:54-56 | purging happens before the cut: a forbidden character anywhere changes nothing, so it never uses up the 100 |
| Naming.FirstMatchPicks | src/server.py:61-73 | the first-match lookup chooses row k's label when row k matches and no earlier row does |
| Naming.FirstMatchFallback | src/server.py:72-73 | with no matching row the lookup gives `Video` |
| Naming.FirstMatchingRow | src/server.py:61-73 | if some row matches, there is a first matching row at or before it |
| Naming.DetectPlatformIsFirstMatch | src/server.py:59-73 | `detect_platform` is the first-match lookup of the lower-cased URL in the ordered table YouTube, Instagram, VK, Rutube, TikTok |
| Naming.DetectPlatformCaseInsensitive | src/server.py:61 | upper- or lower-casing the URL first does not change the platform |
| Naming.ContainsLowered | src/server.py:61 | a pattern in any letter case found in the URL is found, lower-cased, in the lower-cased URL |
| Naming.YouTubeWins | src/server.py:62-63 | a URL holding `youtube.com` or `youtu.be` in any case is YouTube, whatever else it holds |
| Naming.TikTokLast | src/server.py:61-73 | a URL holding `tiktok.com` in any letter case, the last pattern tested, never falls back to `Video` |
| Naming.ClassifyTikTok | src/server.py:70-73 | a lower-cased URL holding `tiktok.com` gets a platform other than `Video` |
| Naming.DetectPlatform | src/server.py:59-73 | the platform is one of the six labels YouTube, Instagram, VK, Rutube, TikTok and Video |
| Naming.Classify | src/server.py:62-73 | the five substring tests on the lower-cased URL, in order, give one of those six labels |
| Naming.DetectPlatformFallback | src/server.py:59-73 | the result is `Video` exactly when none of the seven substrings occurs in the lower-cased URL |
| Formatting.Decimal | src/server.py:138-139 | `f"{n}"` is a non-empty digit string with no leading zero unless n is 0 |
| Formatting.Pad2 | src/server.py:127-128 | `f"{n:02d}"` is a digit string of at least two characters, exactly two below 100, with a leading zero only below ten |
| Formatting.DecimalLength | src/server.py:138-139 | the unpadded rendering has one digit below ten and at least two from ten on |
| Formatting.DecimalRoundTrip | src/server.py:138-139 | the unpadded rendering parses back to n |
| Formatting.Pad2RoundTrip | src/server.py:127-128 | the zero-padded rendering parses back to n |
| Formatting.Decompose | src/server.py:122-124 | hours*3600 + minutes*60 + seconds equals the input, with minutes and seconds below 60 |
| Formatting.DecomposeUnique | src/server.py:133-135 | that split is the only one with minutes and seconds below 60 |
| Formatting.FormatTimestamp | src/server.py:120-128 | `[MM:SS]`, or `[HH:MM:SS]` from one hour on; its shape and its read-back are stated by `TimestampShape` and `TimestampRoundTrip` |
| Formatting.FormatDuration | src/server.py:131-139 | `M:SS`, or `H:MM:SS` from one hour on, with an unpadded leading unit; its shape and its read-back are stated by `DurationShape` and `DurationRoundTrip` |
| Formatting.TimestampRoundTrip | src/server.py:120-128 | a rendered timestamp parses back to the same number of seconds |
| Formatting.DurationRoundTrip | src/server.py:131-139 | a rendered duration parses back to the same number of seconds |
| Formatting.TimestampShape | src/server.py:120-128 | the timestamp is bracketed, has two fields below one hour and three from one hour on; minutes and seconds have exactly two digits, hours at least two with a leading zero only below ten; and the fields read as the hours, minutes and seconds below sixty that `Decompose` gives |
| Formatting.DurationShape | src/server.py:131-139 | the duration has no brackets, two fields below one hour and three from one hour on, two-digit trailing fields and an unpadded leading unit, and the fields read as the hours, minutes and seconds below sixty that `Decompose` gives |
| Formatting.TimestampExamples | src/server.py:120-128 | 65 gives `[01:05]`, 3725 gives `[01:02:05]` and 0 gives `[00:00]` |
| Formatting.DurationExamples | src/server.py:131-139 | 125 gives `2:05` and 3725 gives `1:02:05` |
| Transcript.Normalize | src/server.py:157-161 | a recorded segment keeps the engine's start and end, and its text is the engine's text with its surrounding whitespace removed (`StrippedFrom`) |
| Transcript.Normalized | src/server.py:155-162 | one segment per engine segment, in order, each the `Normalize` of its engine segment: the same times and the text with its surrounding whitespace removed |
| Transcript.NormalizedSnoc | src/server.py:155-160 | one more engine segment appends exactly its stripped copy |
| Transcript.CollectSegments | src/server.py:155-162 | the loop builds exactly `Normalized` of the engine's segments |
| Transcript.FileName | src/server.py:175-177 | the name `<stamp>_<platform>_<sanitised title>.txt`; its pieces are stated by `FileNameShape` and `FileNameNoSlash` |
| Transcript.FileNameShape | src/server.py:175-177 | the name starts with stamp, `_`, platform, `_`, ends in `.txt`, and holds the sanitised title in between, so its length is fixed by the pieces |
| Transcript.FileNameNoSlash | src/server.py:175-177 | the name holds no `/` unless the stamp or platform does, so the file stays in the transcript directory |
| Transcript.HeaderLines | src/server.py:181-191 | the six labelled lines, a blank line, the 50-character rule and a blank line; `HeaderLayout` states each of the nine lines |
| Transcript.SegmentLine | src/server.py:194-196 | the segment's timestamp, a space and its text; `SegmentLineRoundTrip` reads it back |
| Transcript.FooterLines | src/server.py:199-206 | blank line, rule, heading, rule, blank line, then the space-joined text |
| Transcript.Lines | src/server.py:181-206 | the header, one line per segment and the footer; `LinesLayout` states where each line sits |
| Transcript.Content | src/server.py:209 | the lines joined with line breaks; `ContentLines` and `ContentReadBack` split it back |
| Transcript.FullText | src/server.py:205 | the segment texts joined with one space; `FullTextOrder` states the order |
| Transcript.Repeat | src/server.py:189 | `"=" * n` is n copies of `=` |
| Transcript.BuildLines | src/server.py:181-206 | the list built step by step is exactly `Lines`: header, one line per segment, footer |
| Transcript.AppendSegmentLines | src/server.py:194-196 | the loop appends one timestamped line per segment, in order, after the lines already there |
| Transcript.SegmentLinesSnoc | src/server.py:194-196 | one more segment adds its line at the end |
| Transcript.LinesLayout | src/server.py:181-206 | the list has 15 + n lines: the nine header lines first, line 9 + i is segment i's timestamp and text, then the six footer lines, the last being the space-joined text |
| Transcript.HeaderLayout | src/server.py:181-191 | the header has nine lines: each of the first six is its label followed by the record's field, the date or the rendered duration, then a blank line, the rule and a blank line |
| Transcript.JoinAvoids | src/server.py:209 | joining pieces that lack a character with a separator that lacks it gives a text without it |
| Transcript.FixedTextsSingleLine | src/server.py:181-206 | no label, heading or rule holds a line break |
| Transcript.HeaderSingleLine | src/server.py:181-191 | with single-line fields, no header line holds a line break |
| Transcript.SegmentLinesSingleLine | src/server.py:194-196 | with single-line texts, no segment line holds a line break |
| Transcript.FooterSingleLine | src/server.py:199-206 | with single-line texts, no footer line holds a line break |
| Transcript.ContentLines | src/server.py:181-209 | with single-line fields, splitting the written text at line breaks gives back the list, so the file has 15 + n lines |
| Transcript.SegmentLineRoundTrip | src/server.py:194-196 | a segment line reads back as the segment's start second and its exact text |
| Transcript.ContentReadBack | src/server.py:181-209 | line 9 + i of the written file reads back as segment i, and its last line is the space-joined text |
| Transcript.FullTextOrder | src/server.py:205 | the trailing text is the texts of the earlier segments, one space, then the texts of the later ones |
| Transcript.JoinAppend | src/server.py:205 | joining two non-empty lists is joining each, with the separator between |
| Directories.IsAudio | src/server.py:322 | the glob `audio_*`: the name starts with `audio_` |
| Directories.IsAudioMp3 | src/server.py:290 | the glob `audio_*.mp3`: the name starts with `audio_` and ends in `.mp3`, the two not overlapping |
| Directories.IsListing | src/server.py:370-387 | what the listing promises for a directory and a limit: the `[:limit]` count, each entry a transcript of the directory with its path, strictly descending, nothing left out above a listed name; `ListingUnique` shows it fixes the listing |
| Directories.Cleaned | src/server.py:320-326 | after the cleanup no `audio_*` file is left except those whose unlink failed, and every other file is kept |
| Directories.CleanedIdempotent | src/server.py:320-326 | a second cleanup removes nothing more |
| Directories.TempDir.Receive | src/server.py:285 | the download adds the files it writes to the temp directory |
| Directories.TempDir.FindAudio | src/server.py:289-295 | the glob loop finds an `audio_*.mp3` file of the directory, and finds none exactly when there is none |
| Directories.TempDir.RemoveAudio | src/server.py:320-326 | the unlink loop leaves the directory as `Cleaned` describes |
| Directories.Insert | src/server.py:372 | inserting keeps every name and adds one: same multiset plus the new name |
| Directories.SortDescending | src/server.py:372 | the sort is a permutation of its input |
| Directories.InsertDescending | src/server.py:372 | inserting a new name into a strictly descending list keeps it strictly descending |
| Directories.SortDescendingOrders | src/server.py:372 | sorting distinct names with `reverse=True` gives them strictly descending |
| Directories.SliceLength | src/server.py:372 | `[:limit]` keeps at most n names, and at most `limit` when the limit is not negative |
| Directories.TranscriptStore.Save | src/server.py:165-211 | the file named by `FileName` now holds the newline-joined lines, nothing else changes, and its path is returned |
| Directories.TranscriptStore.GlobTranscripts | src/server.py:372 | the glob yields every `*.txt` name of the directory once |
| Directories.TranscriptStore.ListTranscripts | src/server.py:370-387 | the listing has as many entries as `[:limit]` keeps, `count` is their number, each entry is a transcript of the directory with its path, the names are strictly descending, and no name left out is above a listed one |
| Directories.TopOfOrder | src/server.py:372 | the first k names of a descending order are above every other name |
| Directories.DistinctSetSize | src/server.py:372 | a list without repeats has as many elements as its set |
| Directories.ListingUnique | src/server.py:370-387 | two listings that keep that promise are equal: the listing is fully determined by the directory and the limit |
| Directories.TopUnique | src/server.py:372 | two descending selections of the same size that leave out nothing above them are equal |
| Directories.AboveMissing | src/server.py:372 | at the first position where two such selections differ, neither name can be missing from the other selection |
| Paths.ExpandUser | src/server.py:332 | `expanduser` on `~` and `~/...`; `ExpandUserHome` states the result |
| Paths.BaseName | src/server.py:350 | `Path.name`, the text after the last `/`; `BaseNameLast` states it |
| Paths.Stem | src/server.py:350 | `Path.stem`, the name without its suffix; `SuffixAtLastDot`, `StemSuffix` and `StemExamples` state it |
| Paths.StripTrailingSlashes | src/server.py:332 | the home directory loses its trailing slashes and nothing else, as `expanduser` strips them |
| Paths.ExpandUserHome | src/server.py:332 | a path not starting with `~` is kept; `~` and `~/rest` become the home directory without trailing slashes followed by the rest, never empty |
| Paths.LastBelow | src/server.py:350 | the index found lies below the bound, or is -1 |
| Paths.LastBelowLast | src/server.py:350 | the index found holds the character and none lies between it and the bound |
| Paths.RFindLast | src/server.py:350 | `rfind` gives an index holding the character with none after it, and -1 exactly when the character is absent |
| Paths.BaseNameLast | src/server.py:350 | `Path.name` is the slash-free end of the path, preceded by a slash unless it is the whole path |
| Paths.SuffixAtLastDot | src/server.py:350 | a name has a suffix exactly when some dot, with no dot after it, neither starts nor ends it; the suffix then runs from that dot and the stem is what precedes it |
| Paths.StemSuffix | src/server.py:350 | stem and suffix put back together give the name, the suffix is empty or a dot plus a dot-free rest, and a non-empty name has a non-empty stem |
| Paths.StemExamples | src/server.py:350 | `talk.mp3` has stem `talk`, `archive.tar.gz` has `archive.tar`, `.profile` and `notes.` keep their whole name |
| Pipeline.ResolveLanguage | src/server.py:272 | `language or DEFAULT_LANGUAGE`: a missing or empty language gives the default |
| Pipeline.UrlRun | src/server.py:270-318 | the decisions of the URL flow once the artifact is known: download failure, missing artifact, engine exception, no speech, a duration that is not an `int`, or the saved record and the response; the lemmas below state each |
| Pipeline.TranscribeUrl | src/server.py:270-326 | the outcome and the saved file are those of `UrlRun` for an admissible artifact pick, and on every path the temp directory is cleaned up |
| Pipeline.CleanupEmptiesAudio | src/server.py:320-326 | with no failing unlink, the temp directory keeps exactly its non-`audio_*` files |
| Pipeline.UrlDownloadFailure | src/server.py:285-286 | the download error, naming the URL, is reported exactly when the download fails, whatever the temp directory or engine would give, and nothing is saved |
| Pipeline.UrlArtifactMissing | src/server.py:288-295 | "Audio file not found after download" is reported exactly when the download succeeded and no `audio_*.mp3` file was found |
| Pipeline.UrlNoSpeech | src/server.py:297-301 | "No speech detected in the video" is reported exactly when the engine ran on the artifact and heard nothing |
| Pipeline.UrlDurationNotInt | src/server.py:186 | once the engine has heard speech, the flow saves exactly when the duration is an `int`; otherwise it raises the `format_duration` error and saves nothing |
| Pipeline.UrlSuccess | src/server.py:272-318 | the flow saves exactly when it succeeds; then the saved record holds the URL, its platform, the title, the whole-second duration the downloader gave, the resolved language and the stripped engine segments, and the response repeats platform, title, rendered duration, language, segment count, the saved path and the space-joined text |
| Pipeline.LastEnd | src/server.py:344 | the end of the last segment, or 0 with none |
| Pipeline.FileRun | src/server.py:329-367 | the decisions of the file flow: missing path, engine exception, no speech, or the saved record and the response; the lemmas below state each |
| Pipeline.TranscribeFile | src/server.py:329-367 | the outcome and the saved file are those of `FileRun` |
| Pipeline.FileMissing | src/server.py:332-335 | a missing expanded path is reported with the path as given, exactly then, without depending on the engine, and nothing is saved |
| Pipeline.FileSaves | src/server.py:337-367 | the file flow saves exactly when it returns a transcription |
| Pipeline.FileSuccess | src/server.py:330-367 | when the flow saves, the path exists and the engine, asked with the resolved language, heard speech; the record holds its stripped segments and that language, is a `LocalFile` one from `file://` plus the path, titled by the stem, whose duration is the last segment's end, and the response agrees with it |
| Pipeline.Limit | src/server.py:405 | `arguments.get("limit", 20)` |
| Pipeline.Reported | src/server.py:412-413 | an exception becomes an error response carrying its message; a returned response is kept |
| Pipeline.HandleToolCall | src/server.py:390-413 | each tool name goes to its handler; exceptions and missing arguments become error responses; any other name gives `Unknown tool: <name>`; only the URL tool changes the temp directory and only the transcription tools write transcripts |

## Left out

- The MCP tool schema, the stdio server, `asyncio` and `json.dumps`: the model returns the response values before serialisation.
- `get_video_info` and `download_audio` run `yt-dlp` as subprocesses with timeouts. They are inputs: a metadata record and a download result.
- `Pipeline.Duration` does not represent a negative or non-numeric duration from `yt-dlp`, and `Pipeline.VideoInfo` does not represent a `null` title, which would make `sanitize_filename` raise.
- The speech engine, its lazy global model, and the passing of `auto` as language detection are not modelled. The engine is a function from audio file and language to segments or an exception.
- `CollectSegments` does not model float segment times; they are whole seconds.
- `Directories.TranscriptStore.ListTranscripts`: the listing's `size_kb` and `modified` fields are not modelled; they come from `stat` and use float rounding. The `stat` call itself can raise for a listed name, such as a dangling `*.txt` symlink or a file removed after the glob, and the router would then return an error response; the model's listing always succeeds.
- Real file-system effects are not modelled: a failing `write_text`, the `mkdir` calls at start-up, and the temp file's own time-stamped name.
- `Pipeline.FileRun` and `Paths.BaseName` take the path as given, while `pathlib` normalises it: it drops trailing slashes, `.` components and repeated slashes. The title (for `/x/talk.mp3/` the model gives an empty title where `pathlib` gives `talk`), the `file://` source and the `file` field (for `./talk.mp3` the model gives `./talk.mp3` where the server gives `talk.mp3`) can then differ.
- `Paths.ExpandUser` handles `~` and `~/...`; the `~user` form and the error when no home directory can be determined are left out.
- `Strings.Lower` lower-cases only ASCII letters, and so does `Naming.DetectPlatform`. Python's `lower()` also maps non-ASCII capitals, and the patterns are ASCII only, so this can matter only for URLs with non-ASCII capitals.
- `Pipeline.TranscribeUrl` ignores the race in which a found artifact disappears before the `exists()` re-check.
- `Pipeline.HandleToolCall` does not model arguments of the wrong JSON type, or an explicit `null` for a required key.

=== FILE: directories.dfy ===
/**
 * The two directories the server touches: the temp directory, as the set of
 * its file names, which the downloader writes audio into and the handler
 * empties of `audio_*` files; and the transcript directory, as a map from file
 * name to content, which `save_transcript` writes to and `list_transcripts`
 * reads.
 */
module Directories {
  import opened Wrappers
  import opened Strings
  import opened Transcript

  // ---------------------------------------------------------------------------
  // the temp directory
  // ---------------------------------------------------------------------------

  const AudioPrefix := "audio_"

  /** The glob `audio_*`: the files the cleanup removes. */
  predicate IsAudio(name: string)
  {
    StartsWith(name, AudioPrefix)
  }

  /** The glob `audio_*.mp3`: the files the handler may transcribe. */
  predicate IsAudioMp3(name: string)
  {
    |name| >= |AudioPrefix| + 4 && StartsWith(name, AudioPrefix) && EndsWith(name, ".mp3")
  }

  /**
   * What is left of `entries` after the cleanup: every `audio_*` file is
   * removed except those whose removal fails (`locked`), and nothing else.
   */
  function Cleaned(entries: set<string>, locked: set<string>): (left: set<string>)
    ensures left <= entries
    ensures forall g :: g in left && IsAudio(g) ==> g in locked
    ensures forall g :: g in entries && (!IsAudio(g) || g in locked) ==> g in left
  {
    set g | g in entries && (!IsAudio(g) || g in locked)
  }

  /** Cleaning up a second time removes nothing more. */
  lemma CleanedIdempotent(entries: set<string>, locked: set<string>)
    ensures Cleaned(Cleaned(entries, locked), locked) == Cleaned(entries, locked)
  {
  }

  class TempDir {
    /** The names of the files in the directory. */
    var entries: set<string>

    constructor (initial: set<string>)
      ensures entries == initial
    {
      entries := initial;
    }

    /** The downloader writing `written` into the directory. */
    method Receive(written: set<string>)
      modifies this
      ensures entries == old(entries) + written
    {
      entries := entries + written;
    }

    /**
     * The loop over `TEMP_DIR.glob("audio_*.mp3")` that keeps the first match
     * and breaks. The directory's iteration order is unspecified, so any
     * matching file may be the one found.
     */
    method FindAudio() returns (found: Option<string>)
      ensures found.Some? ==> found.value in entries && IsAudioMp3(found.value)
      ensures found.None? <==> forall g :: g in entries ==> !IsAudioMp3(g)
    {
      var pending := entries;
      while pending != {}
        invariant pending <= entries
        invariant forall g :: g in entries && g !in pending ==> !IsAudioMp3(g)
        decreases |pending|
      {
        var g :| g in pending;
        if IsAudioMp3(g) {
          return Some(g);
        }
        pending := pending - {g};
      }
      return None;
    }

    /**
     * The `finally` loop: unlink every `audio_*` file, swallowing the failure
     * of those that cannot be removed (`locked`).
     */
    method RemoveAudio(locked: set<string>)
      modifies this
      ensures entries == Cleaned(old(entries), locked)
    {
      var matches := set g | g in entries && IsAudio(g);
      while matches != {}
        invariant matches <= old(entries)
        invariant forall g :: g in matches ==> IsAudio(g)
        invariant entries == Cleaned(old(entries), locked) + (matches - locked)
        decreases |matches|
      {
        var f :| f in matches;
        if f !in locked {
          entries := entries - {f};
        }
        matches := matches - {f};
      }
    }
  }

  // ---------------------------------------------------------------------------
  // sorting names
  // ---------------------------------------------------------------------------

  /** Every name is below each name before it: strictly descending. */
  predicate StrictlyDescending(s: seq<string>)
  {
    forall i, j :: 0 <= i < j < |s| ==> Below(s[j], s[i])
  }

  predicate Distinct(s: seq<string>)
  {
    forall i, j :: 0 <= i < j < |s| ==> s[i] != s[j]
  }

  /** Puts `x` in front of the first name below it. */
  function Insert(x: string, s: seq<string>): (r: seq<string>)
    ensures |r| == |s| + 1
    ensures forall y :: y in r <==> y == x || y in s
    ensures multiset(r) == multiset(s) + multiset{x}
    decreases |s|
  {
    if |s| == 0 || Below(s[0], x) then [x] + s
    else
      assert s == [s[0]] + s[1..];
      [s[0]] + Insert(x, s[1..])
  }

  /** `sorted(names, reverse=True)`. */
  function SortDescending(s: seq<string>): (r: seq<string>)
    ensures |r| == |s|
    ensures forall y :: y in r <==> y in s
    ensures multiset(r) == multiset(s)
    decreases |s|
  {
    if |s| == 0 then []
    else
      assert s == [s[0]] + s[1..];
      Insert(s[0], SortDescending(s[1..]))
  }

  lemma {:induction false} InsertDescending(x: string, s: seq<string>)
    requires StrictlyDescending(s) && x !in s
    ensures StrictlyDescending(Insert(x, s))
    decreases |s|
  {
    if |s| == 0 {
    } else if Below(s[0], x) {
      forall j | 0 <= j < |s| ensures Below(s[j], x) {
        if j > 0 { BelowTransitive(s[j], s[0], x); }
      }
    } else {
      BelowTotal(x, s[0]);
      assert Below(x, s[0]);
      var rest := Insert(x, s[1..]);
      assert StrictlyDescending(s[1..]);
      InsertDescending(x, s[1..]);
      forall j | 0 <= j < |rest| ensures Below(rest[j], s[0]) {
        assert rest[j] in rest;
        if rest[j] != x {
          var k :| 0 <= k < |s[1..]| && s[1..][k] == rest[j];
          assert s[k + 1] == rest[j];
        }
      }
    }
  }

  /** Sorting distinct names in reverse gives them strictly descending. */
  lemma {:induction false} SortDescendingOrders(s: seq<string>)
    requires Distinct(s)
    ensures StrictlyDescending(SortDescending(s))
    decreases |s|
  {
    if |s| > 0 {
      assert Distinct(s[1..]);
      SortDescendingOrders(s[1..]);
      assert s[0] !in s[1..];
      InsertDescending(s[0], SortDescending(s[1..]));
    }
  }

  // ---------------------------------------------------------------------------
  // the transcript directory
  // ---------------------------------------------------------------------------

  /** The glob `*.txt`. */
  predicate IsTranscriptFile(name: string)
  {
    EndsWith(name, ".txt")
  }

  /** `len(xs[:limit])` for a list of length `n`, with Python's slice rule for a negative `limit`. */
  function SliceLength(n: nat, limit: int): (k: nat)
    ensures k <= n
    ensures limit >= 0 ==> k <= limit
  {
    if limit >= 0 then (if limit < n then limit else n)
    else if n + limit > 0 then n + limit else 0
  }

  /** One element of the `files` list of `list_transcripts`. */
  datatype Entry = Entry(filename: string, path: string)

  /** The result of `list_transcripts`. */
  datatype Listing = Listing(transcriptsDir: string, count: nat, files: seq<Entry>)

  function Names(entries: seq<Entry>): (names: seq<string>)
  {
    seq(|entries|, i requires 0 <= i < |entries| => entries[i].filename)
  }

  /** `TRANSCRIPTS_DIR / name` for the directory `dir`. */
  function PathIn(dir: string, name: string): (path: string)
  {
    dir + "/" + name
  }

  /**
   * What `list_transcripts` promises about its result for the `*.txt` names
   * `names` of the directory `dir`: as many entries as `[:limit]` keeps, each a
   * name of the directory with its path, strictly descending, and no name left
   * out that is above a listed one.
   */
  predicate IsListing(listing: Listing, names: set<string>, dir: string, limit: int)
  {
    listing.transcriptsDir == dir &&
    listing.count == |listing.files| &&
    |listing.files| == SliceLength(|names|, limit) &&
    (forall i :: 0 <= i < |listing.files| ==>
      listing.files[i].filename in names && listing.files[i].path == PathIn(dir, listing.files[i].filename)) &&
    StrictlyDescending(Names(listing.files)) &&
    (forall g, i :: g in names && g !in Names(listing.files) && 0 <= i < |listing.files| ==>
      Below(g, listing.files[i].filename))
  }

  class TranscriptStore {
    /** `TRANSCRIPTS_DIR`, without a trailing separator. */
    const dir: string
    /** The files of the directory: name and text. */
    var files: map<string, string>

    constructor (dir: string, files: map<string, string>)
      ensures this.dir == dir && this.files == files
    {
      this.dir := dir;
      this.files := files;
    }

    /**
     * `save_transcript`: build the lines, write their newline-joined text under
     * the generated name (replacing a file of the same name) and return its path.
     * `stamp` and `date` are the two readings of the clock it formats.
     */
    method Save(r: Record, stamp: string, date: string) returns (path: string)
      modifies this
      ensures files == old(files)[FileName(stamp, r.platform, r.title) := Content(r, date)]
      ensures path == PathIn(dir, FileName(stamp, r.platform, r.title))
    {
      var name := FileName(stamp, r.platform, r.title);
      var lines := BuildLines(r, date);
      files := files[name := Join(lines, "\n")];
      path := PathIn(dir, name);
    }

    /** The names the glob `*.txt` yields. */
    function TranscriptNames(): (names: set<string>)
      reads this
    {
      set g | g in files && IsTranscriptFile(g)
    }

    /**
     * `list_transcripts`: the `limit` greatest `*.txt` names in reverse
     * lexicographic order (Python's `[:limit]`, so a negative `limit` drops
     * that many from the end), each with its path.
     */
    method ListTranscripts(limit: int) returns (listing: Listing)
      ensures IsListing(listing, TranscriptNames(), dir, limit)
    {
      var names := GlobTranscripts();
      SortDescendingOrders(names);
      var ordered := SortDescending(names);
      var shown := ordered[..SliceLength(|ordered|, limit)];
      var entries: seq<Entry> := [];
      for k := 0 to |shown|
        invariant |entries| == k
        invariant forall i :: 0 <= i < k ==> entries[i] == Entry(shown[i], PathIn(dir, shown[i]))
      {
        entries := entries + [Entry(shown[k], PathIn(dir, shown[k]))];
      }
      assert Names(entries) == shown;
      TopOfOrder(ordered, |shown|, TranscriptNames());
      listing := Listing(dir, |entries|, entries);
    }

    /** The glob `*.txt` walked over the directory: each transcript name once, in no particular order. */
    method GlobTranscripts() returns (names: seq<string>)
      ensures Distinct(names)
      ensures forall g :: g in names <==> g in TranscriptNames()
      ensures |names| == |TranscriptNames()|
    {
      names := [];
      var pending := files.Keys;
      while pending != {}
        invariant pending <= files.Keys
        invariant Distinct(names)
        invariant forall g :: g in names <==> g in TranscriptNames() && g !in pending
        decreases |pending|
      {
        var g :| g in pending;
        if IsTranscriptFile(g) {
          names := names + [g];
        }
        pending := pending - {g};
      }
      DistinctSetSize(names);
      assert (set g | g in names) == TranscriptNames();
    }
  }

  /** The first `k` names of a descending order of `all` are above every other name of `all`. */
  lemma TopOfOrder(ordered: seq<string>, k: nat, all: set<string>)
    requires StrictlyDescending(ordered)
    requires forall g :: g in ordered <==> g in all
    requires k <= |ordered|
    ensures forall g, i :: g in all && g !in ordered[..k] && 0 <= i < k ==> Below(g, ordered[i])
  {
    forall g, i | g in all && g !in ordered[..k] && 0 <= i < k
      ensures Below(g, ordered[i])
    {
      assert forall m :: 0 <= m < k ==> ordered[..k][m] == ordered[m];
      var j :| 0 <= j < |ordered| && ordered[j] == g;
    }
  }

  /** A sequence without repetitions has as many elements as its set. */
  lemma {:induction false} DistinctSetSize(s: seq<string>)
    requires Distinct(s)
    ensures |set g | g in s| == |s|
    decreases |s|
  {
    if |s| > 0 {
      assert Distinct(s[1..]);
      DistinctSetSize(s[1..]);
      assert (set g | g in s) == (set g | g in s[1..]) + {s[0]};
      assert s[0] !in (set g | g in s[1..]);
    }
  }

  /**
   * The listing is determined by the directory and the limit: two results that
   * keep the promise are the same, so the contract fixes `list_transcripts` exactly.
   */
  lemma ListingUnique(a: Listing, b: Listing, names: set<string>, dir: string, limit: int)
    requires IsListing(a, names, dir, limit) && IsListing(b, names, dir, limit)
    ensures a == b
  {
    TopUnique(Names(a.files), Names(b.files), names);
    assert a.files == b.files by {
      forall i | 0 <= i < |a.files| ensures a.files[i] == b.files[i] {
        assert Names(a.files)[i] == Names(b.files)[i];
      }
    }
  }

  /** The top of an order is unique: two descending selections of the same size that leave out nothing above them agree. */
  lemma TopUnique(s: seq<string>, t: seq<string>, names: set<string>)
    requires |s| == |t|
    requires forall i :: 0 <= i < |s| ==> s[i] in names && t[i] in names
    requires StrictlyDescending(s) && StrictlyDescending(t)
    requires forall g, i :: g in names && g !in s && 0 <= i < |s| ==> Below(g, s[i])
    requires forall g, i :: g in names && g !in t && 0 <= i < |t| ==> Below(g, t[i])
    ensures s == t
  {
    for k := 0 to |s|
      invariant forall m :: 0 <= m < k ==> s[m] == t[m]
    {
      if s[k] != t[k] {
        BelowTotal(s[k], t[k]);
        if Below(t[k], s[k]) {
          AboveMissing(s, t, names, k);
        } else {
          AboveMissing(t, s, names, k);
        }
      }
    }
  }

  /** At the first position where the selections differ, the greater name cannot be missing from the other one. */
  lemma AboveMissing(s: seq<string>, t: seq<string>, names: set<string>, k: nat)
    requires k < |s| == |t|
    requires s[k] in names
    requires StrictlyDescending(s) && StrictlyDescending(t)
    requires forall g, i :: g in names && g !in t && 0 <= i < |t| ==> Below(g, t[i])
    requires forall m :: 0 <= m < k ==> s[m] == t[m]
    ensures !Below(t[k], s[k])
  {
    if Below(t[k], s[k]) {
      if s[k] in t {
        var j :| 0 <= j < |t| && t[j] == s[k];
        if j < k {
          assert Below(s[k], s[j]);
          BelowIrreflexive(s[k]);
        } else if j == k {
          BelowIrreflexive(s[k]);
        } else {
          BelowTransitive(t[j], t[k], s[k]);
          BelowIrreflexive(s[k]);
        }
      } else {
        assert Below(s[k], t[k]);
        BelowTotal(s[k], t[k]);
      }
    }
  }
}

=== FILE: formatting.dfy ===
/**
 * `format_timestamp` and `format_duration`: a whole number of seconds split
 * into hours, minutes and seconds and rendered as `[MM:SS]`/`[HH:MM:SS]` or as
 * `M:SS`/`H:MM:SS`. Python's `f"{n}"` and `f"{n:02d}"` on a non-negative
 * integer are `Decimal` and `Pad2`. `ParseClock` reads such a rendering back
 * and is the partner the round-trip lemmas connect the formatters to.
 */
module Formatting {
  import opened Wrappers
  import opened Strings

  // ---------------------------------------------------------------------------
  // decimal digits
  // ---------------------------------------------------------------------------

  predicate IsDigit(c: char)
  {
    '0' <= c <= '9'
  }

  predicate AllDigits(s: string)
  {
    forall i :: 0 <= i < |s| ==> IsDigit(s[i])
  }

  function DigitChar(d: nat): (c: char)
    requires d < 10
    ensures IsDigit(c)
  {
    ('0' as int + d) as char
  }

  /** `f"{n}"`: the shortest decimal rendering of `n`. */
  function Decimal(n: nat): (r: string)
    ensures |r| >= 1 && AllDigits(r)
    ensures r[0] == '0' ==> n == 0
    decreases n
  {
    if n < 10 then [DigitChar(n)] else Decimal(n / 10) + [DigitChar(n % 10)]
  }

  /** `f"{n:02d}"`: the decimal rendering, zero-padded on the left to two digits. */
  function Pad2(n: nat): (r: string)
    ensures |r| >= 2 && AllDigits(r)
    ensures n < 100 ==> |r| == 2
    ensures r[0] == '0' ==> n < 10
  {
    DecimalLength(n);
    if n < 10 then "0" + Decimal(n) else Decimal(n)
  }

  /** One digit below ten, two below a hundred. */
  lemma DecimalLength(n: nat)
    ensures n < 10 ==> |Decimal(n)| == 1
    ensures 10 <= n < 100 ==> |Decimal(n)| == 2
    ensures 10 <= n ==> |Decimal(n)| >= 2
  {
  }

  /** The value of a string of digits, most significant first. */
  function DigitsValue(s: string): nat
    requires AllDigits(s)
    decreases |s|
  {
    if |s| == 0 then 0
    else DigitsValue(s[..|s| - 1]) * 10 + (s[|s| - 1] as int - '0' as int)
  }

  /** Reads a non-empty string of decimal digits. */
  function ParseDecimal(s: string): (r: Option<nat>)
  {
    if |s| > 0 && AllDigits(s) then Some(DigitsValue(s)) else None
  }

  lemma {:induction false} DecimalValue(n: nat)
    ensures DigitsValue(Decimal(n)) == n
    decreases n
  {
    if n >= 10 {
      var r := Decimal(n);
      DecimalValue(n / 10);
      assert r[..|r| - 1] == Decimal(n / 10);
    }
  }

  /** Leading zeros do not change the value of a string of digits. */
  lemma {:induction false} LeadingZeroValue(s: string)
    requires AllDigits(s)
    ensures DigitsValue("0" + s) == DigitsValue(s)
    decreases |s|
  {
    if |s| > 0 {
      var t := "0" + s;
      assert t[..|t| - 1] == "0" + s[..|s| - 1];
      LeadingZeroValue(s[..|s| - 1]);
    } else {
      assert ("0" + s)[..0] == "";
    }
  }

  /** `f"{n}"` reads back as `n`. */
  lemma DecimalRoundTrip(n: nat)
    ensures ParseDecimal(Decimal(n)) == Some(n)
  {
    DecimalValue(n);
  }

  /** `f"{n:02d}"` reads back as `n`. */
  lemma Pad2RoundTrip(n: nat)
    ensures ParseDecimal(Pad2(n)) == Some(n)
  {
    DecimalValue(n);
    if n < 10 {
      LeadingZeroValue(Decimal(n));
    }
  }

  // ---------------------------------------------------------------------------
  // hours, minutes and seconds
  // ---------------------------------------------------------------------------

  datatype Fields = Fields(hours: nat, minutes: nat, seconds: nat)

  /**
   * `seconds // 3600`, `(seconds % 3600) // 60` and `seconds % 60`, the split
   * both formatters make.
   */
  function Decompose(s: nat): (f: Fields)
    ensures f.hours * 3600 + f.minutes * 60 + f.seconds == s
    ensures f.minutes < 60 && f.seconds < 60
  {
    var h, rest := s / 3600, s % 3600;
    assert rest / 60 * 60 + rest % 60 == rest;
    assert s % 60 == rest % 60 by {
      assert s == (h * 60 + rest / 60) * 60 + rest % 60;
    }
    Fields(h, rest / 60, s % 60)
  }

  /** The split is the only one with minutes and seconds below sixty. */
  lemma DecomposeUnique(s: nat, f: Fields)
    requires f.hours * 3600 + f.minutes * 60 + f.seconds == s
    requires f.minutes < 60 && f.seconds < 60
    ensures f == Decompose(s)
  {
    var g := Decompose(s);
    var a := f.minutes * 60 + f.seconds;
    var b := g.minutes * 60 + g.seconds;
    assert a < 3600 && b < 3600;
    assert (f.hours - g.hours) * 3600 == b - a;
    assert f.hours == g.hours;
    assert (f.minutes - g.minutes) * 60 == g.seconds - f.seconds;
    assert f.minutes == g.minutes;
  }

  // ---------------------------------------------------------------------------
  // the two renderings
  // ---------------------------------------------------------------------------

  /** `format_timestamp`: `[MM:SS]`, or `[HH:MM:SS]` from one hour on. */
  function FormatTimestamp(s: nat): (r: string)
  {
    var f := Decompose(s);
    if f.hours > 0 then "[" + (Pad2(f.hours) + ":" + Pad2(f.minutes) + ":" + Pad2(f.seconds)) + "]"
    else "[" + (Pad2(f.minutes) + ":" + Pad2(f.seconds)) + "]"
  }

  /** `format_duration`: `M:SS`, or `H:MM:SS` from one hour on; the leading unit is not padded. */
  function FormatDuration(s: nat): (r: string)
  {
    var f := Decompose(s);
    if f.hours > 0 then Decimal(f.hours) + ":" + Pad2(f.minutes) + ":" + Pad2(f.seconds)
    else Decimal(f.minutes) + ":" + Pad2(f.seconds)
  }

  /** Reads `M:SS` or `H:MM:SS` (any number of digits per field) back into seconds. */
  function ParseClock(c: string): (r: Option<nat>)
  {
    var parts := Split(c, ':');
    if |parts| == 2 then
      match (ParseDecimal(parts[0]), ParseDecimal(parts[1]))
      case (Some(m), Some(sec)) => Some(m * 60 + sec)
      case _ => None
    else if |parts| == 3 then
      match (ParseDecimal(parts[0]), ParseDecimal(parts[1]), ParseDecimal(parts[2]))
      case (Some(h), Some(m), Some(sec)) => Some(h * 3600 + m * 60 + sec)
      case _ => None
    else None
  }

  /** Reads a bracketed clock `[...]` back into seconds. */
  function ParseTimestamp(t: string): (r: Option<nat>)
  {
    if |t| >= 2 && t[0] == '[' && t[|t| - 1] == ']' then ParseClock(t[1..|t| - 1]) else None
  }

  lemma DigitsHaveNo(s: string, c: char)
    requires AllDigits(s) && !IsDigit(c)
    ensures c !in s
  {
  }

  /** The pieces of `a:b` and `a:b:c` for digit strings. */
  lemma ClockPieces(a: string, b: string, c: string)
    requires AllDigits(a) && AllDigits(b) && AllDigits(c)
    ensures Split(a + ":" + b, ':') == [a, b]
    ensures Split(a + ":" + b + ":" + c, ':') == [a, b, c]
  {
    TwoPieces(a, b);
    TwoPieces(b, c);
    DigitsHaveNo(a, ':');
    assert a + ":" + b + ":" + c == a + [':'] + (b + ":" + c);
    SplitAtFirstSep(a, b + ":" + c, ':');
  }

  lemma TwoPieces(a: string, b: string)
    requires AllDigits(a) && AllDigits(b)
    ensures Split(a + ":" + b, ':') == [a, b]
  {
    DigitsHaveNo(a, ':');
    DigitsHaveNo(b, ':');
    SplitWithoutSep(b, ':');
    SplitAtFirstSep(a, b, ':');
    assert a + ":" + b == a + [':'] + b;
  }

  /** A bracketed text and what lies between its brackets. */
  lemma Unbracket(x: string)
    ensures var t := "[" + x + "]";
      |t| == |x| + 2 && t[0] == '[' && t[|t| - 1] == ']' && t[1..|t| - 1] == x
  {
    var t := "[" + x + "]";
    assert t[1..|t| - 1] == x;
  }

  /** `m:ss` reads back as `m * 60 + ss` seconds. */
  lemma Clock2RoundTrip(m: nat, sec: nat, a: string, b: string)
    requires AllDigits(a) && AllDigits(b)
    requires ParseDecimal(a) == Some(m) && ParseDecimal(b) == Some(sec)
    ensures ParseClock(a + ":" + b) == Some(m * 60 + sec)
  {
    ClockPieces(a, b, "");
  }

  /** `h:mm:ss` reads back as `h * 3600 + mm * 60 + ss` seconds. */
  lemma Clock3RoundTrip(h: nat, m: nat, sec: nat, a: string, b: string, c: string)
    requires AllDigits(a) && AllDigits(b) && AllDigits(c)
    requires ParseDecimal(a) == Some(h) && ParseDecimal(b) == Some(m) && ParseDecimal(c) == Some(sec)
    ensures ParseClock(a + ":" + b + ":" + c) == Some(h * 3600 + m * 60 + sec)
  {
    ClockPieces(a, b, c);
  }

  /** `format_timestamp` loses nothing: the rendering reads back as the same number of seconds. */
  lemma TimestampRoundTrip(s: nat)
    ensures ParseTimestamp(FormatTimestamp(s)) == Some(s)
  {
    var f := Decompose(s);
    Pad2RoundTrip(f.minutes);
    Pad2RoundTrip(f.seconds);
    if f.hours > 0 {
      Pad2RoundTrip(f.hours);
      var x := Pad2(f.hours) + ":" + Pad2(f.minutes) + ":" + Pad2(f.seconds);
      Clock3RoundTrip(f.hours, f.minutes, f.seconds, Pad2(f.hours), Pad2(f.minutes), Pad2(f.seconds));
      Unbracket(x);
    } else {
      var x := Pad2(f.minutes) + ":" + Pad2(f.seconds);
      Clock2RoundTrip(f.minutes, f.seconds, Pad2(f.minutes), Pad2(f.seconds));
      Unbracket(x);
      assert f.minutes * 60 + f.seconds == s;
    }
  }

  /** `format_duration` loses nothing: the rendering reads back as the same number of seconds. */
  lemma DurationRoundTrip(s: nat)
    ensures ParseClock(FormatDuration(s)) == Some(s)
  {
    var f := Decompose(s);
    Pad2RoundTrip(f.seconds);
    if f.hours > 0 {
      DecimalRoundTrip(f.hours);
      Pad2RoundTrip(f.minutes);
      Clock3RoundTrip(f.hours, f.minutes, f.seconds, Decimal(f.hours), Pad2(f.minutes), Pad2(f.seconds));
      assert FormatDuration(s) == Decimal(f.hours) + ":" + Pad2(f.minutes) + ":" + Pad2(f.seconds);
    } else {
      DecimalRoundTrip(f.minutes);
      Clock2RoundTrip(f.minutes, f.seconds, Decimal(f.minutes), Pad2(f.seconds));
      assert FormatDuration(s) == Decimal(f.minutes) + ":" + Pad2(f.seconds);
      assert f.minutes * 60 + f.seconds == s;
    }
  }

  /**
   * The shape of `format_timestamp`: brackets around two fields below one hour
   * and three from one hour on; minutes and seconds have exactly two digits,
   * hours at least two with a leading zero only below ten; and the fields read
   * as the hours, minutes and seconds of `Decompose`.
   */
  lemma TimestampShape(s: nat)
    ensures var t := FormatTimestamp(s);
      var parts := Split(t[1..|t| - 1], ':');
      && t[0] == '[' && t[|t| - 1] == ']'
      && (s < 3600 <==> |parts| == 2)
      && (s >= 3600 <==> |parts| == 3)
      && |parts[|parts| - 1]| == 2 && |parts[|parts| - 2]| == 2
      && (|parts| == 3 ==> |parts[0]| >= 2 && (parts[0][0] == '0' ==> |parts[0]| == 2))
      && ParseDecimal(parts[|parts| - 1]) == Some(Decompose(s).seconds)
      && ParseDecimal(parts[|parts| - 2]) == Some(Decompose(s).minutes)
      && (|parts| == 3 ==> ParseDecimal(parts[0]) == Some(Decompose(s).hours))
  {
    var f := Decompose(s);
    Pad2RoundTrip(f.minutes);
    Pad2RoundTrip(f.seconds);
    if f.hours > 0 {
      Pad2RoundTrip(f.hours);
      var x := Pad2(f.hours) + ":" + Pad2(f.minutes) + ":" + Pad2(f.seconds);
      Unbracket(x);
      ClockPieces(Pad2(f.hours), Pad2(f.minutes), Pad2(f.seconds));
    } else {
      var x := Pad2(f.minutes) + ":" + Pad2(f.seconds);
      Unbracket(x);
      ClockPieces(Pad2(f.minutes), Pad2(f.seconds), "");
    }
  }

  /**
   * The shape of `format_duration`: no brackets, two fields below one hour and
   * three from one hour on; the fields after the first have exactly two digits
   * and the first has no leading zero unless it is `0`; and the fields read as
   * the hours, minutes and seconds of `Decompose`.
   */
  lemma DurationShape(s: nat)
    ensures var d := FormatDuration(s);
      var parts := Split(d, ':');
      && '[' !in d && ']' !in d
      && (s < 3600 <==> |parts| == 2)
      && (s >= 3600 <==> |parts| == 3)
      && |parts[|parts| - 1]| == 2
      && (|parts| == 3 ==> |parts[1]| == 2)
      && (parts[0][0] == '0' ==> |parts[0]| == 1)
      && ParseDecimal(parts[|parts| - 1]) == Some(Decompose(s).seconds)
      && ParseDecimal(parts[|parts| - 2]) == Some(Decompose(s).minutes)
      && (|parts| == 3 ==> ParseDecimal(parts[0]) == Some(Decompose(s).hours))
  {
    var f := Decompose(s);
    Pad2RoundTrip(f.seconds);
    if f.hours > 0 {
      DecimalRoundTrip(f.hours);
      Pad2RoundTrip(f.minutes);
      assert FormatDuration(s) == Decimal(f.hours) + ":" + Pad2(f.minutes) + ":" + Pad2(f.seconds);
      ClockPieces(Decimal(f.hours), Pad2(f.minutes), Pad2(f.seconds));
      ClockAvoids(Decimal(f.hours), Pad2(f.minutes), Pad2(f.seconds), '[');
      ClockAvoids(Decimal(f.hours), Pad2(f.minutes), Pad2(f.seconds), ']');
    } else {
      DecimalRoundTrip(f.minutes);
      assert FormatDuration(s) == Decimal(f.minutes) + ":" + Pad2(f.seconds);
      ClockPieces(Decimal(f.minutes), Pad2(f.seconds), "");
      ClockAvoids(Decimal(f.minutes), Pad2(f.seconds), "", '[');
      ClockAvoids(Decimal(f.minutes), Pad2(f.seconds), "", ']');
    }
  }

  /** A character that is neither a digit nor `:` occurs in no clock built from digit strings. */
  lemma ClockAvoids(a: string, b: string, c: string, ch: char)
    requires AllDigits(a) && AllDigits(b) && AllDigits(c)
    requires !IsDigit(ch) && ch != ':'
    ensures ch !in a + ":" + b
    ensures ch !in a + ":" + b + ":" + c
  {
    DigitsHaveNo(a, ch);
    DigitsHaveNo(b, ch);
    DigitsHaveNo(c, ch);
    assert ":"[0] != ch;
  }

  lemma TimestampExamples()
    ensures FormatTimestamp(65) == "[01:05]"
    ensures FormatTimestamp(3725) == "[01:02:05]"
    ensures FormatTimestamp(0) == "[00:00]"
  {
    DecomposeUnique(65, Fields(0, 1, 5));
    DecomposeUnique(3725, Fields(1, 2, 5));
    DecomposeUnique(0, Fields(0, 0, 0));
  }

  lemma DurationExamples()
    ensures FormatDuration(125) == "2:05"
    ensures FormatDuration(3725) == "1:02:05"
  {
    DecomposeUnique(125, Fields(0, 2, 5));
    DecomposeUnique(3725, Fields(1, 2, 5));
  }
}

=== FILE: naming.dfy ===
/**
 * `sanitize_filename` and `detect_platform`: the pure naming helpers of the
 * server (src/server.py).
 */
module Naming {
  import opened Strings

  // ---------------------------------------------------------------------------
  // sanitize_filename
  // ---------------------------------------------------------------------------

  /** The character class `[<>:"/\\|?*]` the title is purged of. */
  predicate Forbidden(c: char)
  {
    c == '<' || c == '>' || c == ':' || c == '"' || c == '/' ||
    c == '\\' || c == '|' || c == '?' || c == '*'
  }

  predicate NoForbidden(s: string)
  {
    forall i :: 0 <= i < |s| ==> !Forbidden(s[i])
  }

  /** `re.sub(r'[<>:"/\\|?*]', '', s)`: every forbidden character deleted, the rest kept in order. */
  function RemoveForbidden(s: string): (r: string)
    ensures NoForbidden(r)
    ensures |r| <= |s|
    decreases |s|
  {
    if |s| == 0 then ""
    else if Forbidden(s[0]) then RemoveForbidden(s[1..])
    else [s[0]] + RemoveForbidden(s[1..])
  }

  /** Deleting distributes over concatenation. */
  lemma {:induction false} RemoveForbiddenAppend(a: string, b: string)
    ensures RemoveForbidden(a + b) == RemoveForbidden(a) + RemoveForbidden(b)
    decreases |a|
  {
    if |a| > 0 {
      assert (a + b)[0] == a[0] && (a + b)[1..] == a[1..] + b;
      RemoveForbiddenAppend(a[1..], b);
    } else {
      assert a + b == b;
    }
  }

  /** A string without forbidden characters is left as it is. */
  lemma {:induction false} RemoveForbiddenClean(s: string)
    requires NoForbidden(s)
    ensures RemoveForbidden(s) == s
    decreases |s|
  {
    if |s| > 0 {
      RemoveForbiddenClean(s[1..]);
      assert [s[0]] + s[1..] == s;
    }
  }

  /** The longest title `sanitize_filename` keeps. */
  const MaxTitle: nat := 100

  /** `s[:n]` for a non-negative `n`. */
  function TakeAtMost(s: string, n: nat): (r: string)
    ensures |r| == (if |s| <= n then |s| else n)
    ensures r == s[..|r|]
  {
    if |s| <= n then s else s[..n]
  }

  /** `sanitize_filename`: purge, cut to 100 characters, strip. */
  function SanitizeFilename(name: string): (r: string)
    ensures NoForbidden(r)
    ensures |r| <= MaxTitle
    ensures Trimmed(r)
    ensures StrippedFrom(r, TakeAtMost(RemoveForbidden(name), MaxTitle))
  {
    var purged := RemoveForbidden(name);
    var cut := TakeAtMost(purged, MaxTitle);
    Strip(cut)
  }

  /** The sanitised title never holds a path separator. */
  lemma SanitizeNoSlash(name: string)
    ensures '/' !in SanitizeFilename(name)
  {
    var safe := SanitizeFilename(name);
    forall i | 0 <= i < |safe| ensures safe[i] != '/' {
      assert !Forbidden(safe[i]);
    }
  }

  /** A title that is already clean, short and trimmed is kept verbatim. */
  lemma SanitizeClean(s: string)
    requires NoForbidden(s) && |s| <= MaxTitle && Trimmed(s)
    ensures SanitizeFilename(s) == s
  {
    RemoveForbiddenClean(s);
    StripTrimmed(s);
  }

  /** Sanitising twice is sanitising once. */
  lemma SanitizeIdempotent(name: string)
    ensures SanitizeFilename(SanitizeFilename(name)) == SanitizeFilename(name)
  {
    SanitizeClean(SanitizeFilename(name));
  }

  /** Purging happens before the cut: forbidden characters do not count against the 100. */
  lemma SanitizeIgnoresForbidden(a: string, b: string, c: char)
    requires Forbidden(c)
    ensures SanitizeFilename(a + [c] + b) == SanitizeFilename(a + b)
  {
    RemoveForbiddenAppend(a + [c], b);
    RemoveForbiddenAppend(a, [c]);
    RemoveForbiddenAppend(a, b);
    assert [c][1..] == "";
    assert RemoveForbidden([c]) == "";
    assert RemoveForbidden(a + [c] + b) == RemoveForbidden(a + b);
  }

  // ---------------------------------------------------------------------------
  // detect_platform
  // ---------------------------------------------------------------------------

  /** `detect_platform`: the platform of the lower-cased URL. */
  function DetectPlatform(url: string): (platform: string)
    ensures platform in Labels
  {
    Classify(Lower(url))
  }

  /** The five substring tests of `detect_platform` on a lower-cased URL; the first that succeeds wins. */
  function Classify(u: string): (platform: string)
    ensures platform in Labels
  {
    if Contains(u, "youtube.com") || Contains(u, "youtu.be") then "YouTube"
    else if Contains(u, "instagram.com") then "Instagram"
    else if Contains(u, "vk.com") || Contains(u, "vkvideo") then "VK"
    else if Contains(u, "rutube.ru") then "Rutube"
    else if Contains(u, "tiktok.com") then "TikTok"
    else Fallback
  }

  /** The label used when no pattern matches. */
  const Fallback := "Video"

  /** The six labels `detect_platform` can give. */
  const Labels: set<string> := {"YouTube", "Instagram", "VK", "Rutube", "TikTok", Fallback}

  /** One row of the platform table: the substrings that select a label. */
  datatype Row = Row(patterns: seq<string>, platform: string)

  /** The fixed, ordered platform table `detect_platform` encodes. */
  const Platforms: seq<Row> := [
    Row(["youtube.com", "youtu.be"], "YouTube"),
    Row(["instagram.com"], "Instagram"),
    Row(["vk.com", "vkvideo"], "VK"),
    Row(["rutube.ru"], "Rutube"),
    Row(["tiktok.com"], "TikTok")
  ]

  predicate RowMatches(row: Row, u: string)
  {
    exists k :: 0 <= k < |row.patterns| && Contains(u, row.patterns[k])
  }

  /** The reference lookup: the label of the first row with a pattern in `u`. */
  function FirstMatch(rows: seq<Row>, u: string): (platform: string)
    decreases |rows|
  {
    if |rows| == 0 then Fallback
    else if RowMatches(rows[0], u) then rows[0].platform
    else FirstMatch(rows[1..], u)
  }

  /** The label of row `k` is chosen exactly when row `k` matches and no earlier row does. */
  lemma {:induction false} FirstMatchPicks(rows: seq<Row>, u: string, k: nat)
    requires k < |rows|
    requires RowMatches(rows[k], u)
    requires forall j :: 0 <= j < k ==> !RowMatches(rows[j], u)
    ensures FirstMatch(rows, u) == rows[k].platform
    decreases k
  {
    if k > 0 {
      assert !RowMatches(rows[0], u);
      FirstMatchPicks(rows[1..], u, k - 1);
    }
  }

  /** With no matching row the fallback label is chosen. */
  lemma {:induction false} FirstMatchFallback(rows: seq<Row>, u: string)
    requires forall j :: 0 <= j < |rows| ==> !RowMatches(rows[j], u)
    ensures FirstMatch(rows, u) == Fallback
    decreases |rows|
  {
    if |rows| > 0 {
      assert !RowMatches(rows[0], u);
      FirstMatchFallback(rows[1..], u);
    }
  }

  /** The if-chain of `detect_platform` is the first-match lookup in the ordered table. */
  lemma DetectPlatformIsFirstMatch(url: string)
    ensures DetectPlatform(url) == FirstMatch(Platforms, Lower(url))
  {
    var u := Lower(url);
    var p := Platforms;
    assert RowMatches(p[0], u) <==> Contains(u, "youtube.com") || Contains(u, "youtu.be") by {
      assert p[0].patterns[0] == "youtube.com" && p[0].patterns[1] == "youtu.be";
    }
    assert RowMatches(p[1], u) <==> Contains(u, "instagram.com") by {
      assert p[1].patterns[0] == "instagram.com";
    }
    assert RowMatches(p[2], u) <==> Contains(u, "vk.com") || Contains(u, "vkvideo") by {
      assert p[2].patterns[0] == "vk.com" && p[2].patterns[1] == "vkvideo";
    }
    assert RowMatches(p[3], u) <==> Contains(u, "rutube.ru") by {
      assert p[3].patterns[0] == "rutube.ru";
    }
    assert RowMatches(p[4], u) <==> Contains(u, "tiktok.com") by {
      assert p[4].patterns[0] == "tiktok.com";
    }
    assert p[1..][1..][1..][1..][1..] == [];
  }

  /** The platform depends only on the lower-cased URL: upper-casing or lower-casing it changes nothing. */
  lemma DetectPlatformCaseInsensitive(url: string)
    ensures DetectPlatform(Lower(url)) == DetectPlatform(url)
    ensures DetectPlatform(Upper(url)) == DetectPlatform(url)
  {
    LowerIdempotent(url);
    LowerUpper(url);
  }

  /** A pattern spelt in any case is found in the lower-cased URL. */
  lemma ContainsLowered(s: string, q: string)
    requires Contains(s, q)
    ensures Contains(Lower(s), Lower(q))
  {
    ContainsIffOccurs(s, q);
    var i :| OccursAt(s, q, i);
    forall j | 0 <= j < |q| ensures Lower(s)[i..i + |q|][j] == Lower(q)[j] {
      assert s[i + j] == s[i..i + |q|][j] == q[j];
    }
    assert Lower(s)[i..i + |q|] == Lower(q);
    ContainsIffOccurs(Lower(s), Lower(q));
  }

  /**
   * A URL with a YouTube domain in it, in any letter case, is YouTube whatever
   * else it contains: the TikTok, VK or Instagram tests are never reached.
   */
  lemma YouTubeWins(url: string, q: string)
    requires Lower(q) == "youtube.com" || Lower(q) == "youtu.be"
    requires Contains(url, q)
    ensures DetectPlatform(url) == "YouTube"
  {
    ContainsLowered(url, q);
  }

  /**
   * A URL holding `tiktok.com` in any letter case, the pattern on the last row
   * of the table, never falls back to `Video`.
   */
  lemma TikTokLast(url: string, q: string)
    requires Lower(q) == "tiktok.com"
    requires Contains(url, q)
    ensures DetectPlatform(url) != Fallback
  {
    ContainsLowered(url, q);
    ClassifyTikTok(Lower(url));
  }

  lemma ClassifyTikTok(u: string)
    requires Contains(u, "tiktok.com")
    ensures Classify(u) != Fallback
  {
  }

  /** The fallback label is given exactly when none of the seven substrings occurs. */
  lemma DetectPlatformFallback(url: string)
    ensures DetectPlatform(url) == Fallback <==>
      forall j, k :: 0 <= j < |Platforms| && 0 <= k < |Platforms[j].patterns| ==>
        !Contains(Lower(url), Platforms[j].patterns[k])
  {
    DetectPlatformIsFirstMatch(url);
    var u := Lower(url);
    if forall j :: 0 <= j < |Platforms| ==> !RowMatches(Platforms[j], u) {
      FirstMatchFallback(Platforms, u);
    } else {
      var j :| 0 <= j < |Platforms| && RowMatches(Platforms[j], u);
      var first := FirstMatchingRow(Platforms, u, j);
      FirstMatchPicks(Platforms, u, first);
    }
  }

  /** The index of the first row that matches, given that row `j` does. */
  lemma {:induction false} FirstMatchingRow(rows: seq<Row>, u: string, j: nat) returns (k: nat)
    requires j < |rows| && RowMatches(rows[j], u)
    ensures k <= j && RowMatches(rows[k], u)
    ensures forall i :: 0 <= i < k ==> !RowMatches(rows[i], u)
    decreases j
  {
    if j == 0 || forall i :: 0 <= i < j ==> !RowMatches(rows[i], u) {
      k := j;
    } else {
      var i :| 0 <= i < j && RowMatches(rows[i], u);
      k := FirstMatchingRow(rows, u, i);
    }
  }
}

=== FILE: paths.dfy ===
/**
 * The `pathlib` operations of the file flow: `expanduser`, `name` and `stem`
 * on POSIX paths written with `/`.
 */
module Paths {
  import opened Strings

  /** Removes every trailing `/`, as `rstrip('/')` does. */
  function StripTrailingSlashes(s: string): (r: string)
    ensures |r| <= |s| && r == s[..|r|]
    ensures r == [] || r[|r| - 1] != '/'
    ensures forall i :: |r| <= i < |s| ==> s[i] == '/'
    decreases |s|
  {
    if |s| > 0 && s[|s| - 1] == '/' then StripTrailingSlashes(s[..|s| - 1]) else s
  }

  /**
   * `Path(p).expanduser()` for a path that names the current user's home as
   * `~` or `~/...`; `home` is the home directory. Any other path is kept.
   */
  function ExpandUser(p: string, home: string): (r: string)
  {
    if p == "~" || StartsWith(p, "~/") then
      var expanded := StripTrailingSlashes(home) + p[1..];
      if expanded == "" then "/" else expanded
    else p
  }

  /**
   * A path that does not start with `~` is kept; a `~` or `~/rest` path becomes
   * the home directory without its trailing slashes followed by the rest, and
   * is never empty.
   */
  lemma ExpandUserHome(p: string, home: string)
    ensures !(p == "~" || StartsWith(p, "~/")) ==> ExpandUser(p, home) == p
    ensures StartsWith(p, "~/") ==>
      var h := StripTrailingSlashes(home);
      StartsWith(ExpandUser(p, home), h) && ExpandUser(p, home)[|h|..] == p[1..]
    ensures p == "~" ==>
      ExpandUser(p, home) == (if StripTrailingSlashes(home) == "" then "/" else StripTrailingSlashes(home))
    ensures p == "~" || StartsWith(p, "~/") ==> ExpandUser(p, home) != ""
  {
    var h := StripTrailingSlashes(home);
    if StartsWith(p, "~/") {
      assert p[1..][0] == '/';
      var r := h + p[1..];
      assert r[..|h|] == h && r[|h|..] == p[1..];
    } else if p == "~" {
      assert p[1..] == "";
      assert h + p[1..] == h;
    }
  }

  /** `s.rfind(c)`: the index of the last `c` in `s`, or -1. */
  function RFind(s: string, c: char): (i: int)
    ensures -1 <= i < |s|
  {
    LastBelow(s, c, |s|)
  }

  /** The index of the last `c` among the first `k` characters of `s`, or -1. */
  function LastBelow(s: string, c: char, k: nat): (i: int)
    requires k <= |s|
    ensures -1 <= i < k
    decreases k
  {
    if k == 0 then -1
    else if s[k - 1] == c then k - 1
    else LastBelow(s, c, k - 1)
  }

  /** `rfind` finds the character, and no occurrence of it lies after the index found. */
  lemma RFindLast(s: string, c: char)
    ensures RFind(s, c) >= 0 ==> s[RFind(s, c)] == c
    ensures forall j :: RFind(s, c) < j < |s| ==> s[j] != c
    ensures RFind(s, c) == -1 <==> c !in s
  {
    LastBelowLast(s, c, |s|);
  }

  lemma {:induction false} LastBelowLast(s: string, c: char, k: nat)
    requires k <= |s|
    ensures LastBelow(s, c, k) >= 0 ==> s[LastBelow(s, c, k)] == c
    ensures forall j :: LastBelow(s, c, k) < j < k ==> s[j] != c
    decreases k
  {
    if k > 0 && s[k - 1] != c {
      LastBelowLast(s, c, k - 1);
    }
  }

  /** `Path(p).name`: the text after the last `/`. */
  function BaseName(p: string): (name: string)
  {
    p[RFind(p, '/') + 1..]
  }

  /** The name is the slash-free end of the path, preceded by a slash unless it is the whole path. */
  lemma BaseNameLast(p: string)
    ensures '/' !in BaseName(p)
    ensures EndsWith(p, BaseName(p))
    ensures |BaseName(p)| < |p| ==> p[|p| - |BaseName(p)| - 1] == '/'
  {
    RFindLast(p, '/');
    var k := RFind(p, '/') + 1;
    var name := p[k..];
    forall i | 0 <= i < |name| ensures name[i] != '/' {
      assert name[i] == p[k + i];
    }
    assert p[|p| - |name|..] == name;
  }

  /** Whether `name` has a suffix: a last dot that neither starts nor ends it. */
  predicate HasSuffix(name: string)
  {
    var i := RFind(name, '.');
    0 < i < |name| - 1
  }

  /** `PurePath.suffix` of a final component. */
  function Suffix(name: string): (suffix: string)
  {
    if HasSuffix(name) then name[RFind(name, '.')..] else ""
  }

  /** `PurePath.stem` of a final component: the name without its suffix. */
  function Stem(name: string): (stem: string)
  {
    if HasSuffix(name) then name[..RFind(name, '.')] else name
  }

  /**
   * The stem and the suffix split the name: the suffix is empty or a dot
   * followed by at least one character and no other dot, and the stem is never
   * empty when the name is not.
   */
  lemma StemSuffix(name: string)
    ensures Stem(name) + Suffix(name) == name
    ensures Suffix(name) == "" || (|Suffix(name)| >= 2 && Suffix(name)[0] == '.' && '.' !in Suffix(name)[1..])
    ensures name != "" ==> Stem(name) != ""
  {
    RFindLast(name, '.');
    if HasSuffix(name) {
      var i := RFind(name, '.');
      assert name[..i] + name[i..] == name;
      forall j | 0 <= j < |name[i..][1..]| ensures name[i..][1..][j] != '.' {
        assert name[i..][1..][j] == name[i + 1 + j];
      }
    }
  }

  /**
   * A name has a suffix exactly when its last dot neither starts nor ends it;
   * the suffix then runs from that dot.
   */
  lemma SuffixAtLastDot(name: string)
    ensures Suffix(name) != "" <==>
      exists i :: 0 < i < |name| - 1 && name[i] == '.' && '.' !in name[i + 1..]
    ensures forall i :: 0 < i < |name| - 1 && name[i] == '.' && '.' !in name[i + 1..] ==>
      Suffix(name) == name[i..] && Stem(name) == name[..i]
  {
    RFindLast(name, '.');
    var k := RFind(name, '.');
    if HasSuffix(name) {
      var t := name[k + 1..];
      forall j | 0 <= j < |t| ensures t[j] != '.' {
        assert t[j] == name[k + 1 + j];
      }
    }
  }

  lemma StemExamples()
    ensures Stem("talk.mp3") == "talk"
    ensures Stem("archive.tar.gz") == "archive.tar"
    ensures Stem(".profile") == ".profile"
    ensures Stem("notes.") == "notes."
  {
    var a := "archive.tar.gz";
    assert a[13] == 'z' && a[12] == 'g' && a[11] == '.';
    assert LastBelow(a, '.', 12) == 11;
    assert LastBelow(a, '.', 13) == 11;
    assert LastBelow(a, '.', 14) == 11;
    assert RFind(a, '.') == 11;
    assert a[..11] == "archive.tar";
    RFindLast("talk.mp3", '.');
    RFindLast(".profile", '.');
    RFindLast("notes.", '.');
  }
}

=== FILE: pipeline.dfy ===
/**
 * The tool handlers of the server: `handle_transcribe_url`,
 * `handle_transcribe_file` and the router `handle_tool_call`, which sends
 * `list_transcripts` to `Directories.TranscriptStore.ListTranscripts`. The downloader, the speech engine, the clock and the
 * file-system tests they call are inputs: an `Environment` says what each of
 * them answers.
 */
module Pipeline {
  import opened Wrappers
  import opened Formatting
  import opened Naming
  import opened Transcript
  import opened Directories
  import opened Paths

  // ---------------------------------------------------------------------------
  // the collaborators
  // ---------------------------------------------------------------------------

  /**
   * The `duration` the downloader reports: a whole number of seconds (0 when
   * the key is absent), a float (even a whole-valued one such as `30.0`), or
   * `null`.
   */
  datatype Duration = Whole(seconds: nat) | Float | Null

  /** The record `get_video_info` returns, or its `Unknown` record when the probe fails. */
  datatype VideoInfo = VideoInfo(title: string, duration: Duration, uploader: string)

  /** What `download_audio` reports, and the files it leaves in the temp directory. */
  datatype Download = Download(ok: bool, written: set<string>)

  /** What the speech engine gives for one audio file: its segments, or the exception it raises. */
  datatype Engine = Heard(segments: seq<Segment>) | Crashed(message: string)

  /** The two readings of `datetime.now()` in `save_transcript`: `%Y-%m-%d_%H%M` and `%Y-%m-%d %H:%M`. */
  datatype Clock = Clock(stamp: string, date: string)

  datatype Environment = Environment(
    defaultLanguage: string,   // DEFAULT_LANGUAGE
    home: string,              // the home directory `expanduser` substitutes
    info: VideoInfo,           // get_video_info(url)
    download: Download,        // download_audio(url, ...)
    transcribe: (string, string) -> Engine,  // the engine on (audio file, language)
    present: string -> bool,   // Path.exists
    clock: Clock,
    locked: set<string>)       // temp files whose unlink fails

  // ---------------------------------------------------------------------------
  // results
  // ---------------------------------------------------------------------------

  /** The dictionaries the handlers return. */
  datatype Response =
    | Failure(error: string)
    | UrlTranscribed(platform: string, title: string, duration: string, language: string,
                     segmentsCount: nat, savedTo: string, transcript: string)
    | FileTranscribed(file: string, duration: string, language: string,
                      segmentsCount: nat, savedTo: string, transcript: string)
    | Transcripts(listing: Listing)

  /** A handler either returns a response or raises an exception with a message. */
  datatype Outcome = Returned(response: Response) | Raised(message: string)

  /** A handler's outcome together with the record it saved, if it reached `save_transcript`. */
  datatype Run = Run(outcome: Outcome, saved: Option<Record>)

  function DownloadFailed(url: string): string
  {
    "Failed to download audio from " + url + ". Make sure the video is public."
  }

  /**
   * The message of the exception `format_duration` raises on a duration that
   * is not an `int`: a float fails the `02d` format of its minutes or
   * seconds, `None` fails the first floor division.
   */
  function DurationError(d: Duration): string
    requires !d.Whole?
  {
    if d.Float? then "Unknown format code 'd' for object of type 'float'"
    else "unsupported operand type(s) for //: 'NoneType' and 'int'"
  }

  const ArtifactMissing := "Audio file not found after download"
  const NoSpeechInVideo := "No speech detected in the video"
  const NoSpeechInFile := "No speech detected in the file"

  function FileNotFound(filePath: string): string
  {
    "File not found: " + filePath
  }

  function UnknownTool(name: string): string
  {
    "Unknown tool: " + name
  }

  /** `language or DEFAULT_LANGUAGE`: a missing or empty language gives the default. */
  function ResolveLanguage(language: Option<string>, defaultLanguage: string): string
  {
    if language.Some? && language.value != "" then language.value else defaultLanguage
  }

  /** The directory after a run: the saved record's content under its file name, or nothing new. */
  function Stored(files: map<string, string>, saved: Option<Record>, clock: Clock): map<string, string>
  {
    match saved
    case None => files
    case Some(r) => files[FileName(clock.stamp, r.platform, r.title) := Content(r, clock.date)]
  }

  // ---------------------------------------------------------------------------
  // handle_transcribe_url
  // ---------------------------------------------------------------------------

  /**
   * The artifact the glob loop may pick from `entries`: any `audio_*.mp3`
   * file, or none when there is no such file. Nothing is picked when the
   * download failed, as the loop is then never reached.
   */
  predicate Chosen(downloaded: bool, entries: set<string>, picked: Option<string>)
  {
    if !downloaded then picked.None?
    else if picked.Some? then picked.value in entries && IsAudioMp3(picked.value)
    else forall g :: g in entries ==> !IsAudioMp3(g)
  }

  /** The decisions of `handle_transcribe_url` once the artifact `picked` is known. */
  function UrlRun(url: string, language: Option<string>, env: Environment, picked: Option<string>, dir: string): Run
  {
    var lang := ResolveLanguage(language, env.defaultLanguage);
    var platform := DetectPlatform(url);
    if !env.download.ok then Run(Returned(Failure(DownloadFailed(url))), None)
    else if picked.None? then Run(Returned(Failure(ArtifactMissing)), None)
    else match env.transcribe(picked.value, lang)
      case Crashed(m) => Run(Raised(m), None)
      case Heard(raw) =>
        var segments := Normalized(raw);
        if |segments| == 0 then Run(Returned(Failure(NoSpeechInVideo)), None)
        else if !env.info.duration.Whole? then Run(Raised(DurationError(env.info.duration)), None)
        else
          var r := Record(url, platform, env.info.title, env.info.duration.seconds, segments, lang);
          Run(Returned(UrlTranscribed(platform, env.info.title, FormatDuration(env.info.duration.seconds), lang,
                                      |segments|, PathIn(dir, FileName(env.clock.stamp, platform, env.info.title)),
                                      FullText(segments))),
              Some(r))
  }

  /**
   * `handle_transcribe_url`: download into the temp directory, pick the
   * artifact, transcribe, save; and in every case, as its `finally` does,
   * remove the `audio_*` files from the temp directory.
   */
  method TranscribeUrl(url: string, language: Option<string>, env: Environment, temp: TempDir, store: TranscriptStore)
    returns (out: Outcome)
    modifies temp, store
    ensures temp.entries == Cleaned(old(temp.entries) + env.download.written, env.locked)
    ensures exists picked :: (
      Chosen(env.download.ok, old(temp.entries) + env.download.written, picked) &&
      out == UrlRun(url, language, env, picked, store.dir).outcome &&
      store.files == Stored(old(store.files), UrlRun(url, language, env, picked, store.dir).saved, env.clock))
  {
    var lang := ResolveLanguage(language, env.defaultLanguage);
    var platform := DetectPlatform(url);
    var info := env.info;
    temp.Receive(env.download.written);
    ghost var picked: Option<string> := None;
    ghost var run: Run;
    if !env.download.ok {
      out := Returned(Failure(DownloadFailed(url)));
      run := Run(out, None);
    } else {
      var found := temp.FindAudio();
      picked := found;
      if found.None? {
        out := Returned(Failure(ArtifactMissing));
        run := Run(out, None);
      } else {
        match env.transcribe(found.value, lang)
        case Crashed(m) =>
          out := Raised(m);
          run := Run(out, None);
        case Heard(raw) =>
          var segments := CollectSegments(raw);
          if |segments| == 0 {
            out := Returned(Failure(NoSpeechInVideo));
            run := Run(out, None);
          } else if !info.duration.Whole? {
            out := Raised(DurationError(info.duration));
            run := Run(out, None);
          } else {
            var r := Record(url, platform, info.title, info.duration.seconds, segments, lang);
            var path := store.Save(r, env.clock.stamp, env.clock.date);
            out := Returned(UrlTranscribed(platform, info.title, FormatDuration(info.duration.seconds), lang,
                                           |segments|, path, FullText(segments)));
            run := Run(out, Some(r));
          }
      }
    }
    assert run == UrlRun(url, language, env, picked, store.dir);
    assert store.files == Stored(old(store.files), run.saved, env.clock);
    assert Chosen(env.download.ok, old(temp.entries) + env.download.written, picked);
    temp.RemoveAudio(env.locked);
  }

  /** Cleanup with every unlink succeeding leaves no `audio_*` file and every other file. */
  lemma CleanupEmptiesAudio(entries: set<string>)
    ensures forall g :: g in Cleaned(entries, {}) <==> g in entries && !IsAudio(g)
  {
  }

  /**
   * A failed download is reported as such whatever the temp directory holds
   * and whatever the engine would say, and nothing is saved; the message is
   * given on no other path.
   */
  lemma UrlDownloadFailure(url: string, language: Option<string>, env: Environment, picked: Option<string>, dir: string)
    ensures UrlRun(url, language, env, picked, dir).outcome == Returned(Failure(DownloadFailed(url))) <==> !env.download.ok
    ensures !env.download.ok ==> UrlRun(url, language, env, picked, dir).saved == None
  {
    assert DownloadFailed(url)[0] == 'F';
    assert ArtifactMissing[0] == 'A' && NoSpeechInVideo[0] == 'N';
  }

  /** A missing artifact is reported exactly when the download succeeded and the glob found nothing. */
  lemma UrlArtifactMissing(url: string, language: Option<string>, env: Environment, picked: Option<string>, dir: string)
    ensures UrlRun(url, language, env, picked, dir).outcome == Returned(Failure(ArtifactMissing)) <==>
      env.download.ok && picked.None?
  {
    assert DownloadFailed(url)[0] == 'F';
    assert ArtifactMissing[0] == 'A' && NoSpeechInVideo[0] == 'N';
  }

  /** No speech is reported exactly when the engine ran on the artifact and heard no segment. */
  lemma UrlNoSpeech(url: string, language: Option<string>, env: Environment, picked: Option<string>, dir: string)
    ensures UrlRun(url, language, env, picked, dir).outcome == Returned(Failure(NoSpeechInVideo)) <==>
      env.download.ok && picked.Some? &&
      env.transcribe(picked.value, ResolveLanguage(language, env.defaultLanguage)) == Heard([])
  {
    assert DownloadFailed(url)[0] == 'F';
    assert ArtifactMissing[0] == 'A' && NoSpeechInVideo[0] == 'N';
  }

  /**
   * A duration that is not an `int` makes `save_transcript` raise after the
   * engine has heard speech, before anything is written; on no other path is
   * that message given.
   */
  lemma UrlDurationNotInt(url: string, language: Option<string>, env: Environment, picked: Option<string>, dir: string)
    requires env.download.ok && picked.Some?
    requires var heard := env.transcribe(picked.value, ResolveLanguage(language, env.defaultLanguage));
      heard.Heard? && |Normalized(heard.segments)| > 0
    ensures UrlRun(url, language, env, picked, dir).saved.Some? <==> env.info.duration.Whole?
    ensures !env.info.duration.Whole? ==>
      UrlRun(url, language, env, picked, dir) == Run(Raised(DurationError(env.info.duration)), None)
  {
  }

  /**
   * The URL flow saves exactly when it succeeds, and then the response agrees
   * with the saved record: one segment per engine segment, the path of the
   * saved name, and the space-joined text that ends the saved file.
   */
  lemma UrlSuccess(url: string, language: Option<string>, env: Environment, picked: Option<string>, dir: string)
    ensures var run := UrlRun(url, language, env, picked, dir);
      run.saved.Some? <==> run.outcome.Returned? && run.outcome.response.UrlTranscribed?
    ensures var run := UrlRun(url, language, env, picked, dir);
      run.saved.Some? ==>
        var r := run.saved.value;
        var response := run.outcome.response;
        picked.Some? && env.transcribe(picked.value, r.language).Heard? &&
        r.segments == Normalized(env.transcribe(picked.value, r.language).segments) &&
        response.segmentsCount == |r.segments| > 0 &&
        response.savedTo == PathIn(dir, FileName(env.clock.stamp, r.platform, r.title)) &&
        r.platform == DetectPlatform(url) == response.platform &&
        r.source == url && r.title == env.info.title == response.title &&
        env.info.duration == Whole(r.duration) && response.duration == FormatDuration(r.duration) &&
        r.language == ResolveLanguage(language, env.defaultLanguage) == response.language &&
        response.transcript == FullText(r.segments)
  {
  }

  // ---------------------------------------------------------------------------
  // handle_transcribe_file
  // ---------------------------------------------------------------------------

  /** `int(segments[-1]["end"]) if segments else 0`: the end of the last segment. */
  function LastEnd(segments: seq<Segment>): nat
  {
    if |segments| > 0 then segments[|segments| - 1].end else 0
  }

  /** The decisions of `handle_transcribe_file`. */
  function FileRun(filePath: string, language: Option<string>, env: Environment, dir: string): Run
  {
    var lang := ResolveLanguage(language, env.defaultLanguage);
    var path := ExpandUser(filePath, env.home);
    if !env.present(path) then Run(Returned(Failure(FileNotFound(filePath))), None)
    else match env.transcribe(path, lang)
      case Crashed(m) => Run(Raised(m), None)
      case Heard(raw) =>
        var segments := Normalized(raw);
        if |segments| == 0 then Run(Returned(Failure(NoSpeechInFile)), None)
        else
          var duration := LastEnd(segments);
          var title := Stem(BaseName(path));
          var r := Record("file://" + path, "LocalFile", title, duration, segments, lang);
          Run(Returned(FileTranscribed(path, FormatDuration(duration), lang, |segments|,
                                       PathIn(dir, FileName(env.clock.stamp, "LocalFile", title)),
                                       FullText(segments))),
              Some(r))
  }

  /** `handle_transcribe_file`: check the path, transcribe, save under the file's stem. */
  method TranscribeFile(filePath: string, language: Option<string>, env: Environment, store: TranscriptStore)
    returns (out: Outcome)
    modifies store
    ensures out == FileRun(filePath, language, env, store.dir).outcome
    ensures store.files == Stored(old(store.files), FileRun(filePath, language, env, store.dir).saved, env.clock)
  {
    var lang := ResolveLanguage(language, env.defaultLanguage);
    var path := ExpandUser(filePath, env.home);
    ghost var run: Run;
    if !env.present(path) {
      out := Returned(Failure(FileNotFound(filePath)));
      run := Run(out, None);
    } else {
      match env.transcribe(path, lang)
      case Crashed(m) =>
        out := Raised(m);
        run := Run(out, None);
      case Heard(raw) =>
        var segments := CollectSegments(raw);
        if |segments| == 0 {
          out := Returned(Failure(NoSpeechInFile));
          run := Run(out, None);
        } else {
          var duration := LastEnd(segments);
          var r := Record("file://" + path, "LocalFile", Stem(BaseName(path)), duration, segments, lang);
          var saved := store.Save(r, env.clock.stamp, env.clock.date);
          out := Returned(FileTranscribed(path, FormatDuration(duration), lang, |segments|, saved, FullText(segments)));
          run := Run(out, Some(r));
          FileRunHeard(filePath, language, env, store.dir, raw);
        }
    }
    assert run == FileRun(filePath, language, env, store.dir);
    assert store.files == Stored(old(store.files), run.saved, env.clock);
  }

  /** The success branch of `FileRun`, spelt out. */
  lemma FileRunHeard(filePath: string, language: Option<string>, env: Environment, dir: string, raw: seq<Segment>)
    requires env.present(ExpandUser(filePath, env.home))
    requires env.transcribe(ExpandUser(filePath, env.home), ResolveLanguage(language, env.defaultLanguage)) == Heard(raw)
    requires |Normalized(raw)| > 0
    ensures var path := ExpandUser(filePath, env.home);
      var lang := ResolveLanguage(language, env.defaultLanguage);
      var segments := Normalized(raw);
      var title := Stem(BaseName(path));
      FileRun(filePath, language, env, dir) ==
        Run(Returned(FileTranscribed(path, FormatDuration(LastEnd(segments)), lang, |segments|,
                                     PathIn(dir, FileName(env.clock.stamp, "LocalFile", title)),
                                     FullText(segments))),
            Some(Record("file://" + path, "LocalFile", title, LastEnd(segments), segments, lang)))
  {
  }

  /**
   * A path that does not exist is reported with the path as given, before the
   * engine is consulted: the outcome does not depend on what it would say.
   */
  lemma FileMissing(filePath: string, language: Option<string>, env: Environment, dir: string, transcribe: (string, string) -> Engine)
    ensures FileRun(filePath, language, env, dir).outcome == Returned(Failure(FileNotFound(filePath))) <==>
      !env.present(ExpandUser(filePath, env.home))
    ensures !env.present(ExpandUser(filePath, env.home)) ==>
      FileRun(filePath, language, env, dir) == FileRun(filePath, language, env.(transcribe := transcribe), dir) &&
      FileRun(filePath, language, env, dir).saved == None
  {
    assert FileNotFound(filePath)[0] == 'F' && NoSpeechInFile[0] == 'N';
  }

  /** The file flow saves exactly when it succeeds. */
  lemma FileSaves(filePath: string, language: Option<string>, env: Environment, dir: string)
    ensures var run := FileRun(filePath, language, env, dir);
      run.saved.Some? <==> run.outcome.Returned? && run.outcome.response.FileTranscribed?
  {
  }

  /**
   * On success the file flow saves a local-file record whose duration is the
   * end of the last segment, titled by the file's stem, and the response
   * agrees with the saved record.
   */
  lemma FileSuccess(filePath: string, language: Option<string>, env: Environment, dir: string)
    requires FileRun(filePath, language, env, dir).saved.Some?
    ensures var run := FileRun(filePath, language, env, dir);
      var path := ExpandUser(filePath, env.home);
      var r := run.saved.value;
      var response := run.outcome.response;
      && env.present(path) && |r.segments| > 0
      && r.language == ResolveLanguage(language, env.defaultLanguage) == response.language
      && env.transcribe(path, r.language).Heard?
      && r.segments == Normalized(env.transcribe(path, r.language).segments)
      && r.source == "file://" + path && r.platform == "LocalFile" && r.title == Stem(BaseName(path))
      && r.duration == r.segments[|r.segments| - 1].end
      && run.outcome.Returned? && response.FileTranscribed?
      && response.file == path && response.duration == FormatDuration(r.duration)
      && response.segmentsCount == |r.segments|
      && response.savedTo == PathIn(dir, FileName(env.clock.stamp, "LocalFile", r.title))
      && response.transcript == FullText(r.segments)
  {
    var path := ExpandUser(filePath, env.home);
    var lang := ResolveLanguage(language, env.defaultLanguage);
    var raw := env.transcribe(path, lang).segments;
    var segments := Normalized(raw);
    var title := Stem(BaseName(path));
    var duration := LastEnd(segments);
    assert FileRun(filePath, language, env, dir) ==
      Run(Returned(FileTranscribed(path, FormatDuration(duration), lang, |segments|,
                                   PathIn(dir, FileName(env.clock.stamp, "LocalFile", title)),
                                   FullText(segments))),
          Some(Record("file://" + path, "LocalFile", title, duration, segments, lang)));
  }

  // ---------------------------------------------------------------------------
  // handle_tool_call
  // ---------------------------------------------------------------------------

  /** The `arguments` dictionary; a key that is absent is `None`. */
  datatype Args = Args(url: Option<string>, filePath: Option<string>, language: Option<string>, limit: Option<int>)

  /** `arguments.get("limit", 20)`. */
  function Limit(args: Args): int
  {
    if args.limit.Some? then args.limit.value else 20
  }

  /** The `except` of `handle_tool_call`: an exception becomes an error response with its message. */
  function Reported(o: Outcome): Response
  {
    match o
    case Returned(response) => response
    case Raised(message) => Failure(message)
  }

  /**
   * `handle_tool_call`: route by tool name. A missing required argument raises
   * `KeyError`, whose message is the quoted key; an unknown name is an error
   * response. Only the URL tool touches the temp directory and only the two
   * transcription tools write transcripts.
   */
  method HandleToolCall(name: string, args: Args, env: Environment, temp: TempDir, store: TranscriptStore)
    returns (result: Response)
    modifies temp, store
    ensures name == "transcribe_url" && args.url.Some? ==>
      temp.entries == Cleaned(old(temp.entries) + env.download.written, env.locked) &&
      exists picked :: (
        Chosen(env.download.ok, old(temp.entries) + env.download.written, picked) &&
        result == Reported(UrlRun(args.url.value, args.language, env, picked, store.dir).outcome) &&
        store.files == Stored(old(store.files), UrlRun(args.url.value, args.language, env, picked, store.dir).saved, env.clock))
    ensures name == "transcribe_file" && args.filePath.Some? ==>
      result == Reported(FileRun(args.filePath.value, args.language, env, store.dir).outcome) &&
      store.files == Stored(old(store.files), FileRun(args.filePath.value, args.language, env, store.dir).saved, env.clock) &&
      temp.entries == old(temp.entries)
    ensures name == "list_transcripts" ==>
      result.Transcripts? && IsListing(result.listing, old(store.TranscriptNames()), store.dir, Limit(args))
    ensures (name == "transcribe_url" && args.url.None?) ==> result == Failure("'url'")
    ensures (name == "transcribe_file" && args.filePath.None?) ==> result == Failure("'file_path'")
    ensures name != "transcribe_url" && name != "transcribe_file" && name != "list_transcripts" ==>
      result == Failure(UnknownTool(name))
    ensures name != "transcribe_url" || args.url.None? ==>
      temp.entries == old(temp.entries)
    ensures !(name == "transcribe_url" && args.url.Some?) && !(name == "transcribe_file" && args.filePath.Some?) ==>
      store.files == old(store.files)
  {
    if name == "transcribe_url" {
      if args.url.None? {
        return Failure("'url'");
      }
      var out := TranscribeUrl(args.url.value, args.language, env, temp, store);
      result := Reported(out);
    } else if name == "transcribe_file" {
      if args.filePath.None? {
        return Failure("'file_path'");
      }
      var out := TranscribeFile(args.filePath.value, args.language, env, store);
      result := Reported(out);
    } else if name == "list_transcripts" {
      var listing := store.ListTranscripts(Limit(args));
      result := Transcripts(listing);
    } else {
      result := Failure(UnknownTool(name));
    }
  }
}

=== FILE: strings.dfy ===
/**
 * The Python `str` operations the server relies on, over strings as sequences
 * of code points: `sep.join`, `strip`, `lower`, the `in` substring test and
 * the ordering `sorted` uses; plus `split`, the inverse of `join` that reads a
 * written transcript back, and the prefix and suffix tests the glob patterns
 * and the lemmas are stated with.
 */
module Strings {

  // ---------------------------------------------------------------------------
  // join and split
  // ---------------------------------------------------------------------------

  /** `sep.join(parts)`. */
  function Join(parts: seq<string>, sep: string): (r: string)
    ensures |parts| == 1 ==> r == parts[0]
  {
    if |parts| == 0 then ""
    else if |parts| == 1 then parts[0]
    else parts[0] + sep + Join(parts[1..], sep)
  }

  /** `s.split(sep)` for a one-character separator: the pieces between separators. */
  function Split(s: string, sep: char): (parts: seq<string>)
    ensures |parts| >= 1
    ensures forall i :: 0 <= i < |parts| ==> sep !in parts[i]
    decreases |s|
  {
    if |s| == 0 then [""]
    else if s[0] == sep then [""] + Split(s[1..], sep)
    else
      var rest := Split(s[1..], sep);
      [[s[0]] + rest[0]] + rest[1..]
  }

  /** A string without the separator is a single piece. */
  lemma {:induction false} SplitWithoutSep(a: string, sep: char)
    requires sep !in a
    ensures Split(a, sep) == [a]
    decreases |a|
  {
    if |a| > 0 {
      SplitWithoutSep(a[1..], sep);
      assert [a[0]] + a[1..] == a;
    }
  }

  /** Splitting at the first separator peels off the text before it. */
  lemma {:induction false} SplitAtFirstSep(a: string, b: string, sep: char)
    requires sep !in a
    ensures Split(a + [sep] + b, sep) == [a] + Split(b, sep)
    decreases |a|
  {
    var s := a + [sep] + b;
    if |a| == 0 {
      assert s[0] == sep && s[1..] == b;
    } else {
      assert s[0] == a[0];
      assert s[1..] == a[1..] + [sep] + b;
      SplitAtFirstSep(a[1..], b, sep);
      assert [a[0]] + a[1..] == a;
    }
  }

  /** Splitting a join of separator-free pieces gives the pieces back. */
  lemma {:induction false} SplitJoin(parts: seq<string>, sep: char)
    requires |parts| >= 1
    requires forall i :: 0 <= i < |parts| ==> sep !in parts[i]
    ensures Split(Join(parts, [sep]), sep) == parts
    decreases |parts|
  {
    if |parts| == 1 {
      SplitWithoutSep(parts[0], sep);
    } else {
      SplitJoin(parts[1..], sep);
      SplitAtFirstSep(parts[0], Join(parts[1..], [sep]), sep);
      assert [parts[0]] + parts[1..] == parts;
    }
  }

  /** Joining the pieces of a split with the separator gives the string back. */
  lemma {:induction false} JoinSplit(s: string, sep: char)
    ensures Join(Split(s, sep), [sep]) == s
    decreases |s|
  {
    if |s| > 0 {
      var rest := Split(s[1..], sep);
      JoinSplit(s[1..], sep);
      if s[0] == sep {
        assert Split(s, sep) == [""] + rest;
        assert ([""] + rest)[1..] == rest;
        assert [sep] + s[1..] == s;
      } else {
        var parts := Split(s, sep);
        assert parts == [[s[0]] + rest[0]] + rest[1..];
        if |rest| == 1 {
          assert rest == [s[1..]];
          assert [s[0]] + s[1..] == s;
        } else {
          assert parts[1..] == rest[1..];
          assert Join(rest, [sep]) == rest[0] + [sep] + Join(rest[1..], [sep]);
          assert [s[0]] + s[1..] == s;
        }
      }
    }
  }

  // ---------------------------------------------------------------------------
  // strip
  // ---------------------------------------------------------------------------

  /**
   * Python's `str.isspace()` on one code point: the characters `strip()`
   * removes when called without arguments.
   */
  predicate IsSpace(c: char)
  {
    ('\U{0009}' <= c <= '\U{000D}') || ('\U{001C}' <= c <= '\U{001F}') ||
    c == ' ' || c == '\U{0085}' || c == '\U{00A0}' || c == '\U{1680}' ||
    ('\U{2000}' <= c <= '\U{200A}') || c == '\U{2028}' || c == '\U{2029}' ||
    c == '\U{202F}' || c == '\U{205F}' || c == '\U{3000}'
  }

  /** `s.lstrip()`: the suffix of `s` that starts at its first non-space. */
  function StripLeft(s: string): (r: string)
    ensures |r| <= |s| && r == s[|s| - |r|..]
    ensures r == [] || !IsSpace(r[0])
    ensures forall i :: 0 <= i < |s| - |r| ==> IsSpace(s[i])
    decreases |s|
  {
    if |s| > 0 && IsSpace(s[0]) then StripLeft(s[1..]) else s
  }

  /** `s.rstrip()`: the prefix of `s` that ends at its last non-space. */
  function StripRight(s: string): (r: string)
    ensures |r| <= |s| && r == s[..|r|]
    ensures r == [] || !IsSpace(r[|r| - 1])
    ensures forall i :: |r| <= i < |s| ==> IsSpace(s[i])
    decreases |s|
  {
    if |s| > 0 && IsSpace(s[|s| - 1]) then StripRight(s[..|s| - 1]) else s
  }

  /** The string has no surrounding whitespace. */
  predicate Trimmed(s: string)
  {
    s == [] || (!IsSpace(s[0]) && !IsSpace(s[|s| - 1]))
  }

  /**
   * `r` is the part of `s` starting at `i`, and everything of `s` before and
   * after it is whitespace.
   */
  predicate Margins(s: string, i: int, r: string)
  {
    0 <= i && i + |r| <= |s| && r == s[i..i + |r|] &&
    (forall j :: 0 <= j < i ==> IsSpace(s[j])) &&
    (forall j :: i + |r| <= j < |s| ==> IsSpace(s[j]))
  }

  /** `r` is `s` with its leading and trailing whitespace, and nothing else, removed. */
  predicate StrippedFrom(r: string, s: string)
  {
    Trimmed(r) && exists i :: 0 <= i <= |s| && Margins(s, i, r)
  }

  /** `s.strip()`. */
  function Strip(s: string): (r: string)
    ensures StrippedFrom(r, s)
  {
    var l := StripLeft(s);
    var r := StripRight(l);
    assert r != [] ==> r[0] == l[0];
    MarginsOfHalves(s, l, r);
    r
  }

  /** Cutting a whitespace prefix off `s`, then a whitespace suffix off the rest, leaves `r` between margins. */
  lemma MarginsOfHalves(s: string, l: string, r: string)
    requires |l| <= |s| && l == s[|s| - |l|..]
    requires forall i :: 0 <= i < |s| - |l| ==> IsSpace(s[i])
    requires |r| <= |l| && r == l[..|r|]
    requires forall i :: |r| <= i < |l| ==> IsSpace(l[i])
    ensures Margins(s, |s| - |l|, r)
  {
    var i := |s| - |l|;
    assert r == s[i..i + |r|];
    forall j | i + |r| <= j < |s| ensures IsSpace(s[j]) {
      assert s[j] == l[j - i];
    }
  }

  /** Only one trimmed string lies between whitespace margins of `s`: `strip()` is pinned by its contract. */
  lemma StrippedFromUnique(s: string, r1: string, r2: string)
    requires StrippedFrom(r1, s) && StrippedFrom(r2, s)
    ensures r1 == r2
  {
    var i1 :| 0 <= i1 <= |s| && Margins(s, i1, r1);
    var i2 :| 0 <= i2 <= |s| && Margins(s, i2, r2);
    assert i1 + |r1| <= |s| && i2 + |r2| <= |s|;
    if r1 != [] && r2 != [] {
      assert s[i1] == r1[0] && s[i2] == r2[0];
      assert i1 == i2;
      var e1, e2 := i1 + |r1| - 1, i2 + |r2| - 1;
      assert s[e1] == r1[|r1| - 1] && s[e2] == r2[|r2| - 1];
      assert e1 == e2;
    }
  }

  /** `strip()` leaves a string without surrounding whitespace unchanged. */
  lemma StripTrimmed(s: string)
    requires Trimmed(s)
    ensures Strip(s) == s
  {
    assert StripLeft(s) == s;
  }

  /** `strip()` is idempotent. */
  lemma StripIdempotent(s: string)
    ensures Strip(Strip(s)) == Strip(s)
  {
    StripTrimmed(Strip(s));
  }

  // ---------------------------------------------------------------------------
  // lower and substring tests
  // ---------------------------------------------------------------------------

  /** Lower-cases one ASCII letter; every other code point is kept. */
  function LowerChar(c: char): (d: char)
  {
    if 'A' <= c <= 'Z' then (c as int + 32) as char else c
  }

  /** Upper-cases one ASCII letter; every other code point is kept. */
  function UpperChar(c: char): (d: char)
  {
    if 'a' <= c <= 'z' then (c as int - 32) as char else c
  }

  /** `s.lower()` on the ASCII letters. */
  function Lower(s: string): (r: string)
    ensures |r| == |s|
    ensures forall i :: 0 <= i < |s| ==> r[i] == LowerChar(s[i])
    decreases |s|
  {
    if |s| == 0 then [] else [LowerChar(s[0])] + Lower(s[1..])
  }

  /** `s.upper()` on the ASCII letters. */
  function Upper(s: string): (r: string)
    ensures |r| == |s|
    ensures forall i :: 0 <= i < |s| ==> r[i] == UpperChar(s[i])
    decreases |s|
  {
    if |s| == 0 then [] else [UpperChar(s[0])] + Upper(s[1..])
  }

  /** Lower-casing twice is lower-casing once. */
  lemma LowerIdempotent(s: string)
    ensures Lower(Lower(s)) == Lower(s)
  {
  }

  /** Lower-casing forgets whether a letter was upper-cased first. */
  lemma LowerUpper(s: string)
    ensures Lower(Upper(s)) == Lower(s)
  {
  }

  /** `s.startswith(p)`. */
  predicate StartsWith(s: string, p: string)
  {
    |p| <= |s| && s[..|p|] == p
  }

  /** `s.endswith(p)`. */
  predicate EndsWith(s: string, p: string)
  {
    |p| <= |s| && s[|s| - |p|..] == p
  }

  /** `sub in s`: `sub` occurs in `s` at some position. */
  predicate Contains(s: string, sub: string)
    decreases |s|
  {
    StartsWith(s, sub) || (|s| > 0 && Contains(s[1..], sub))
  }

  /** `sub` occurs in `s` at position `i`. */
  predicate OccursAt(s: string, sub: string, i: int)
  {
    0 <= i && i + |sub| <= |s| && s[i..i + |sub|] == sub
  }

  /** The recursive substring test finds exactly the occurrences at some position. */
  lemma {:induction false} ContainsIffOccurs(s: string, sub: string)
    ensures Contains(s, sub) <==> exists i :: OccursAt(s, sub, i)
    decreases |s|
  {
    if StartsWith(s, sub) {
      assert OccursAt(s, sub, 0);
    } else if |s| > 0 {
      ContainsIffOccurs(s[1..], sub);
      if Contains(s[1..], sub) {
        var i :| OccursAt(s[1..], sub, i);
        assert s[1..][i..i + |sub|] == s[i + 1..i + 1 + |sub|];
        assert OccursAt(s, sub, i + 1);
      } else {
        assert !OccursAt(s, sub, 0);
        forall i | 0 < i && i + |sub| <= |s| ensures !OccursAt(s, sub, i) {
          assert !OccursAt(s[1..], sub, i - 1);
          assert s[1..][i - 1..i - 1 + |sub|] == s[i..i + |sub|];
        }
      }
    }
  }

  // ---------------------------------------------------------------------------
  // ordering
  // ---------------------------------------------------------------------------

  /** Python's `a < b` on strings: code point by code point, a proper prefix first. */
  predicate Below(a: string, b: string)
    decreases |a|
  {
    if |a| == 0 then |b| > 0
    else if |b| == 0 then false
    else if a[0] != b[0] then a[0] < b[0]
    else Below(a[1..], b[1..])
  }

  lemma {:induction false} BelowIrreflexive(a: string)
    ensures !Below(a, a)
    decreases |a|
  {
    if |a| > 0 { BelowIrreflexive(a[1..]); }
  }

  lemma {:induction false} BelowTransitive(a: string, b: string, c: string)
    requires Below(a, b) && Below(b, c)
    ensures Below(a, c)
    decreases |a|
  {
    if |a| > 0 && a[0] == b[0] && b[0] == c[0] {
      BelowTransitive(a[1..], b[1..], c[1..]);
    }
  }

  /** Two different strings are ordered one way or the other, never both. */
  lemma {:induction false} BelowTotal(a: string, b: string)
    ensures a != b <==> (Below(a, b) || Below(b, a))
    ensures !(Below(a, b) && Below(b, a))
    decreases |a|
  {
    if |a| > 0 && |b| > 0 && a[0] == b[0] {
      BelowTotal(a[1..], b[1..]);
      if a[1..] == b[1..] {
        assert a == [a[0]] + a[1..] && b == [b[0]] + b[1..];
      }
    } else if |a| == 0 && |b| == 0 {
    }
  }
}

=== FILE: transcript.dfy ===
/**
 * The transcript: the segments the speech engine yields, normalised as
 * `transcribe_audio` does, and the file `save_transcript` writes for them —
 * its name and its newline-joined lines.
 */
module Transcript {
  import opened Wrappers
  import opened Strings
  import opened Formatting
  import opened Naming

  /**
   * One utterance. Times are whole seconds: every use the server makes of the
   * engine's float times (`format_timestamp`, `int(...)`) depends only on their
   * integer part.
   */
  datatype Segment = Segment(start: nat, end: nat, text: string)

  /** A segment as `transcribe_audio` records it: the engine's times, the text stripped. */
  function Normalize(segment: Segment): (r: Segment)
    ensures r.start == segment.start && r.end == segment.end
    ensures StrippedFrom(r.text, segment.text)
  {
    Segment(segment.start, segment.end, Strip(segment.text))
  }

  /** The list `transcribe_audio` builds: one normalised segment per engine segment, in order. */
  function Normalized(heard: seq<Segment>): (segments: seq<Segment>)
    ensures |segments| == |heard|
    ensures forall i :: 0 <= i < |segments| ==>
      segments[i].start == heard[i].start && segments[i].end == heard[i].end && Trimmed(segments[i].text)
    ensures forall i :: 0 <= i < |heard| ==> segments[i] == Normalize(heard[i])
  {
    seq(|heard|, i requires 0 <= i < |heard| => Normalize(heard[i]))
  }

  /** Normalising one more segment appends its normal form. */
  lemma NormalizedSnoc(heard: seq<Segment>, k: nat)
    requires k < |heard|
    ensures Normalized(heard[..k + 1]) == Normalized(heard[..k]) + [Normalize(heard[k])]
  {
    var a := Normalized(heard[..k + 1]);
    var b := Normalized(heard[..k]) + [Normalize(heard[k])];
    assert |a| == |b|;
    forall i | 0 <= i < |a| ensures a[i] == b[i] {
      assert heard[..k + 1][i] == heard[i];
      if i < k {
        assert heard[..k][i] == heard[i];
      }
    }
  }

  /** The loop of `transcribe_audio`: each engine segment appended in order, its text stripped. */
  method CollectSegments(heard: seq<Segment>) returns (result: seq<Segment>)
    ensures result == Normalized(heard)
  {
    result := [];
    for k := 0 to |heard|
      invariant result == Normalized(heard[..k])
    {
      NormalizedSnoc(heard, k);
      result := result + [Normalize(heard[k])];
    }
    assert heard[..|heard|] == heard;
  }

  /** The arguments of `save_transcript`. */
  datatype Record = Record(
    source: string,
    platform: string,
    title: string,
    duration: nat,
    segments: seq<Segment>,
    language: string)

  // ---------------------------------------------------------------------------
  // the file name
  // ---------------------------------------------------------------------------

  /**
   * `f"{date_str}_{platform}_{safe_title}.txt"`, where `stamp` is the
   * `%Y-%m-%d_%H%M` rendering of the clock.
   */
  function FileName(stamp: string, platform: string, title: string): (name: string)
  {
    stamp + "_" + platform + "_" + SanitizeFilename(title) + ".txt"
  }

  /** The name starts with the stamp and platform, ends in `.txt`, and holds the sanitised title between them. */
  lemma FileNameShape(stamp: string, platform: string, title: string)
    ensures var name := FileName(stamp, platform, title);
      && |name| == |stamp| + |platform| + |SanitizeFilename(title)| + 6
      && StartsWith(name, stamp + "_" + platform + "_")
      && EndsWith(name, ".txt")
      && name[|stamp| + |platform| + 2..|name| - 4] == SanitizeFilename(title)
  {
    NamePieces(stamp, platform, SanitizeFilename(title));
  }

  /** The pieces of `stamp_platform_safe.txt`, for any `safe`. */
  lemma NamePieces(stamp: string, platform: string, safe: string)
    ensures var name := stamp + "_" + platform + "_" + safe + ".txt";
      && |name| == |stamp| + |platform| + |safe| + 6
      && StartsWith(name, stamp + "_" + platform + "_")
      && EndsWith(name, ".txt")
      && name[|stamp| + |platform| + 2..|name| - 4] == safe
  {
    var name := stamp + "_" + platform + "_" + safe + ".txt";
    assert name[|stamp| + |platform| + 2..|name| - 4] == safe;
  }

  /** The sanitised title holds no `/`, so the name stays inside the directory unless the stamp or platform has one. */
  lemma FileNameNoSlash(stamp: string, platform: string, title: string)
    requires '/' !in stamp && '/' !in platform
    ensures '/' !in FileName(stamp, platform, title)
  {
    SanitizeNoSlash(title);
    NameNoSlash(stamp, platform, SanitizeFilename(title));
  }

  /** `stamp_platform_safe.txt` has a `/` only where one of its pieces has. */
  lemma NameNoSlash(stamp: string, platform: string, safe: string)
    requires '/' !in stamp && '/' !in platform && '/' !in safe
    ensures '/' !in stamp + "_" + platform + "_" + safe + ".txt"
  {
    var ext := ".txt";
    assert ext[0] != '/' && ext[1] != '/' && ext[2] != '/' && ext[3] != '/';
  }

  // ---------------------------------------------------------------------------
  // the lines
  // ---------------------------------------------------------------------------

  /** `c * n`: the character `c` repeated `n` times. */
  function Repeat(c: char, n: nat): (r: string)
    ensures |r| == n && forall i :: 0 <= i < n ==> r[i] == c
  {
    if n == 0 then "" else [c] + Repeat(c, n - 1)
  }

  /** `"=" * 50`. */
  const Rule: string := Repeat('=', 50)

  const SourceLabel := "Источник: "
  const PlatformLabel := "Платформа: "
  const TitleLabel := "Название: "
  const DateLabel := "Дата транскрипции: "
  const DurationLabel := "Длительность: "
  const LanguageLabel := "Язык: "
  const FullTextHeading := "ПОЛНЫЙ ТЕКСТ (без таймкодов):"

  /** The six labelled lines, a blank line, a rule and a blank line; `date` is `%Y-%m-%d %H:%M`. */
  function HeaderLines(r: Record, date: string): (lines: seq<string>)
  {
    [ SourceLabel + r.source,
      PlatformLabel + r.platform,
      TitleLabel + r.title,
      DateLabel + date,
      DurationLabel + FormatDuration(r.duration),
      LanguageLabel + r.language,
      "",
      Rule,
      "" ]
  }

  /** `f"{format_timestamp(seg['start'])} {seg['text']}"`. */
  function SegmentLine(segment: Segment): (line: string)
  {
    FormatTimestamp(segment.start) + " " + segment.text
  }

  function Texts(segments: seq<Segment>): (texts: seq<string>)
  {
    seq(|segments|, i requires 0 <= i < |segments| => segments[i].text)
  }

  /** `" ".join(seg["text"] for seg in segments)`. */
  function FullText(segments: seq<Segment>): (text: string)
  {
    Join(Texts(segments), " ")
  }

  /** The block `lines.extend` adds after the segment lines. */
  function FooterLines(segments: seq<Segment>): (lines: seq<string>)
  {
    ["", Rule, FullTextHeading, Rule, "", FullText(segments)]
  }

  function SegmentLines(segments: seq<Segment>): (lines: seq<string>)
  {
    seq(|segments|, i requires 0 <= i < |segments| => SegmentLine(segments[i]))
  }

  /** The list `save_transcript` joins with newlines. */
  function Lines(r: Record, date: string): (lines: seq<string>)
  {
    HeaderLines(r, date) + SegmentLines(r.segments) + FooterLines(r.segments)
  }

  /** `"\n".join(lines)`: the text `save_transcript` writes. */
  function Content(r: Record, date: string): (text: string)
  {
    Join(Lines(r, date), "\n")
  }

  /** The list `save_transcript` builds: the header, one `append` per segment, then `extend`. */
  method BuildLines(r: Record, date: string) returns (lines: seq<string>)
    ensures lines == Lines(r, date)
  {
    lines := HeaderLines(r, date);
    lines := AppendSegmentLines(lines, r.segments);
    lines := lines + FooterLines(r.segments);
  }

  /** The loop of `save_transcript` that appends one timestamped line per segment, in order. */
  method AppendSegmentLines(start: seq<string>, segments: seq<Segment>) returns (lines: seq<string>)
    ensures lines == start + SegmentLines(segments)
  {
    lines := start;
    for k := 0 to |segments|
      invariant lines == start + SegmentLines(segments[..k])
    {
      SegmentLinesSnoc(segments, k);
      lines := lines + [SegmentLine(segments[k])];
    }
    assert segments[..|segments|] == segments;
  }

  /** One more segment adds its line at the end. */
  lemma SegmentLinesSnoc(segments: seq<Segment>, k: nat)
    requires k < |segments|
    ensures SegmentLines(segments[..k + 1]) == SegmentLines(segments[..k]) + [SegmentLine(segments[k])]
  {
    var a := SegmentLines(segments[..k + 1]);
    var b := SegmentLines(segments[..k]) + [SegmentLine(segments[k])];
    assert |a| == |b|;
    forall i | 0 <= i < |a| ensures a[i] == b[i] {
      assert segments[..k + 1][i] == segments[i];
      if i < k {
        assert segments[..k][i] == segments[i];
      }
    }
  }

  /**
   * The layout of the list: fifteen lines plus one per segment, the labels and
   * rules in their fixed places, segment `i` on line `9 + i` in input order, and
   * the space-joined text last.
   */
  lemma LinesLayout(r: Record, date: string)
    ensures var lines, n := Lines(r, date), |r.segments|;
      && |lines| == 15 + n
      && lines[..9] == HeaderLines(r, date)
      && (forall i :: 0 <= i < n ==> lines[9 + i] == SegmentLine(r.segments[i]))
      && lines[9 + n..] == FooterLines(r.segments)
      && lines[14 + n] == FullText(r.segments)
  {
    var head, body, foot := HeaderLines(r, date), SegmentLines(r.segments), FooterLines(r.segments);
    var lines, n := Lines(r, date), |r.segments|;
    Concat3(head, body, foot);
    assert lines[14 + n] == lines[9 + n..][5];
    forall i | 0 <= i < n ensures lines[9 + i] == SegmentLine(r.segments[i]) {
      assert lines[|head| + i] == body[i];
    }
  }

  /** Where the elements of `a + b + c` come from. */
  lemma Concat3<T>(a: seq<T>, b: seq<T>, c: seq<T>)
    ensures |a + b + c| == |a| + |b| + |c|
    ensures (a + b + c)[..|a|] == a
    ensures forall i :: 0 <= i < |b| ==> (a + b + c)[|a| + i] == b[i]
    ensures (a + b + c)[|a| + |b|..] == c
  {
    assert (a + b + c)[..|a|] == a;
    assert (a + b + c)[|a| + |b|..] == c;
  }

  /**
   * The header has nine lines: the six labelled lines carry the record's
   * fields after their labels, then come a blank line, the rule and a blank line.
   */
  lemma HeaderLayout(r: Record, date: string)
    ensures var head := HeaderLines(r, date);
      && |head| == 9 && head[6] == "" && head[7] == Rule && head[8] == ""
      && StartsWith(head[0], SourceLabel) && head[0][|SourceLabel|..] == r.source
      && StartsWith(head[1], PlatformLabel) && head[1][|PlatformLabel|..] == r.platform
      && StartsWith(head[2], TitleLabel) && head[2][|TitleLabel|..] == r.title
      && StartsWith(head[3], DateLabel) && head[3][|DateLabel|..] == date
      && StartsWith(head[4], DurationLabel) && head[4][|DurationLabel|..] == FormatDuration(r.duration)
      && StartsWith(head[5], LanguageLabel) && head[5][|LanguageLabel|..] == r.language
  {
    Labelled(SourceLabel, r.source);
    Labelled(PlatformLabel, r.platform);
    Labelled(TitleLabel, r.title);
    Labelled(DateLabel, date);
    Labelled(DurationLabel, FormatDuration(r.duration));
    Labelled(LanguageLabel, r.language);
  }

  /** A labelled line starts with its label, and the value follows it. */
  lemma Labelled(caption: string, value: string)
    ensures StartsWith(caption + value, caption) && (caption + value)[|caption|..] == value
  {
    assert (caption + value)[..|caption|] == caption;
  }

  // ---------------------------------------------------------------------------
  // reading the file back
  // ---------------------------------------------------------------------------

  predicate NoNewline(s: string)
  {
    '\n' !in s
  }

  /** No field that `save_transcript` writes verbatim holds a line break. */
  predicate SingleLineFields(r: Record, date: string)
  {
    && NoNewline(r.source) && NoNewline(r.platform) && NoNewline(r.title)
    && NoNewline(date) && NoNewline(r.language)
    && forall i :: 0 <= i < |r.segments| ==> NoNewline(r.segments[i].text)
  }

  lemma {:induction false} JoinAvoids(parts: seq<string>, sep: string, c: char)
    requires c !in sep
    requires forall i :: 0 <= i < |parts| ==> c !in parts[i]
    ensures c !in Join(parts, sep)
    decreases |parts|
  {
    if |parts| > 1 {
      JoinAvoids(parts[1..], sep, c);
    }
  }

  lemma TimestampAvoids(s: nat, c: char)
    requires !IsDigit(c) && c != ':' && c != '[' && c != ']'
    ensures c !in FormatTimestamp(s)
  {
    var f := Decompose(s);
    DigitsHaveNo(Pad2(f.hours), c);
    DigitsHaveNo(Pad2(f.minutes), c);
    DigitsHaveNo(Pad2(f.seconds), c);
  }

  lemma DurationAvoids(s: nat, c: char)
    requires !IsDigit(c) && c != ':'
    ensures c !in FormatDuration(s)
  {
    var f := Decompose(s);
    DigitsHaveNo(Decimal(f.hours), c);
    DigitsHaveNo(Decimal(f.minutes), c);
    DigitsHaveNo(Pad2(f.minutes), c);
    DigitsHaveNo(Pad2(f.seconds), c);
  }

  predicate LinesAvoid(lines: seq<string>, c: char)
  {
    forall i :: 0 <= i < |lines| ==> c !in lines[i]
  }

  /**
   * None of the fixed labels, headings and rules holds a line break; each
   * literal is checked on its own.
   */
  lemma FixedTextsSingleLine()
    ensures NoNewline(SourceLabel) && NoNewline(PlatformLabel) && NoNewline(TitleLabel)
    ensures NoNewline(DateLabel) && NoNewline(DurationLabel) && NoNewline(LanguageLabel)
    ensures NoNewline(Rule) && NoNewline(FullTextHeading)
  {
    SourceLabelSingleLine();
    PlatformLabelSingleLine();
    TitleLabelSingleLine();
    DateLabelSingleLine();
    DurationLabelSingleLine();
    LanguageLabelSingleLine();
    FullTextHeadingSingleLine();
    RuleSingleLine();
  }

  lemma SourceLabelSingleLine() ensures NoNewline(SourceLabel) { }
  lemma PlatformLabelSingleLine() ensures NoNewline(PlatformLabel) { }
  lemma TitleLabelSingleLine() ensures NoNewline(TitleLabel) { }
  lemma DateLabelSingleLine() ensures NoNewline(DateLabel) { }
  lemma DurationLabelSingleLine() ensures NoNewline(DurationLabel) { }
  lemma LanguageLabelSingleLine() ensures NoNewline(LanguageLabel) { }
  lemma FullTextHeadingSingleLine() ensures NoNewline(FullTextHeading) { }

  lemma RuleSingleLine()
    ensures NoNewline(Rule)
  {
    assert forall i :: 0 <= i < |Rule| ==> Rule[i] == '=';
  }

  lemma HeaderSingleLine(r: Record, date: string)
    requires SingleLineFields(r, date)
    ensures LinesAvoid(HeaderLines(r, date), '\n')
  {
    DurationAvoids(r.duration, '\n');
    FixedTextsSingleLine();
  }

  lemma SegmentLinesSingleLine(segments: seq<Segment>)
    requires forall i :: 0 <= i < |segments| ==> NoNewline(segments[i].text)
    ensures LinesAvoid(SegmentLines(segments), '\n')
  {
    forall i | 0 <= i < |segments| ensures '\n' !in SegmentLine(segments[i]) {
      TimestampAvoids(segments[i].start, '\n');
    }
  }

  lemma FooterSingleLine(segments: seq<Segment>)
    requires forall i :: 0 <= i < |segments| ==> NoNewline(segments[i].text)
    ensures LinesAvoid(FooterLines(segments), '\n')
  {
    JoinAvoids(Texts(segments), " ", '\n');
    FixedTextsSingleLine();
  }

  /**
   * When no field holds a line break, splitting the written text at line
   * breaks gives back exactly the list: the file has `15 + n` lines.
   */
  lemma ContentLines(r: Record, date: string)
    requires SingleLineFields(r, date)
    ensures Split(Content(r, date), '\n') == Lines(r, date)
    ensures |Split(Content(r, date), '\n')| == 15 + |r.segments|
  {
    var head, body, foot := HeaderLines(r, date), SegmentLines(r.segments), FooterLines(r.segments);
    HeaderSingleLine(r, date);
    SegmentLinesSingleLine(r.segments);
    FooterSingleLine(r.segments);
    assert LinesAvoid(head + body + foot, '\n');
    SplitJoin(Lines(r, date), '\n');
  }

  /** Reads a segment line back: the timestamp before the first space, the text after it. */
  function ReadSegmentLine(line: string): (r: Option<(nat, string)>)
  {
    var parts := Split(line, ' ');
    match ParseTimestamp(parts[0])
    case Some(start) => Some((start, Join(parts[1..], " ")))
    case None => None
  }

  /** A segment line reads back as the segment's start second and its exact text. */
  lemma SegmentLineRoundTrip(segment: Segment)
    ensures ReadSegmentLine(SegmentLine(segment)) == Some((segment.start, segment.text))
  {
    var stamp := FormatTimestamp(segment.start);
    TimestampAvoids(segment.start, ' ');
    SplitAtFirstSep(stamp, segment.text, ' ');
    assert SegmentLine(segment) == stamp + [' '] + segment.text;
    var parts := Split(SegmentLine(segment), ' ');
    assert parts[1..] == Split(segment.text, ' ');
    JoinSplit(segment.text, ' ');
    TimestampRoundTrip(segment.start);
  }

  /**
   * The written file reproduces every segment, in input order: line `9 + i` of
   * the text reads back as segment `i`'s start second and text, and the last
   * line is the space-joined text of all segments.
   */
  lemma ContentReadBack(r: Record, date: string, i: nat)
    requires SingleLineFields(r, date)
    requires i < |r.segments|
    ensures var fileLines := Split(Content(r, date), '\n');
      && |fileLines| == 15 + |r.segments|
      && ReadSegmentLine(fileLines[9 + i]) == Some((r.segments[i].start, r.segments[i].text))
      && fileLines[|fileLines| - 1] == FullText(r.segments)
  {
    ContentLines(r, date);
    LinesLayout(r, date);
    SegmentLineRoundTrip(r.segments[i]);
  }

  /** The trailing text holds each segment's text in order, separated by single spaces. */
  lemma FullTextOrder(segments: seq<Segment>, i: nat)
    requires 0 < i < |segments|
    ensures FullText(segments) == FullText(segments[..i]) + " " + FullText(segments[i..])
  {
    JoinAppend(Texts(segments[..i]), Texts(segments[i..]), " ");
    assert Texts(segments) == Texts(segments[..i]) + Texts(segments[i..]);
  }

  lemma {:induction false} JoinAppend(a: seq<string>, b: seq<string>, sep: string)
    requires |a| > 0 && |b| > 0
    ensures Join(a + b, sep) == Join(a, sep) + sep + Join(b, sep)
    decreases |a|
  {
    if |a| == 1 {
      assert (a + b)[1..] == b;
    } else {
      assert (a + b)[1..] == a[1..] + b;
      JoinAppend(a[1..], b, sep);
    }
  }
}

=== FILE: wrappers.dfy ===
/** The optional value the server's lookups and parsers produce. */
module Wrappers {

  datatype Option<+T> = None | Some(value: T)
}
